=== FILE: README.md ===
# Vidhived backend: clause scoring and the analysis-job table

This project models the decision logic of the Vidhived legal co-pilot
backend (`backend/app.py`) in Dafny and proves properties of it. It covers:

- **The legal-phrase importance scorer** (`Scorer`). It takes which of the fifteen
  weighted patterns matched a phrase, and whether the negation and emphasis
  patterns matched. From these it computes the base score: the top formality
  weight when any formality pattern matched, otherwise the top weight of all
  matches. It then adds the context modifiers and clamps the result to [0, 1].
  Scores are integers in thousandths (0.65 is 650), because every constant
  of the scorer is a multiple of 0.01. So the clamp is exact and
  `round(…, 3)` changes nothing.
- **The risk tier of a score** (`Risk`): Red from 0.70, Yellow from 0.40,
  Green below.
- **The per-block step of the analysis task** (`Classify`). The OCR output is
  a list of blocks of words with a bounding box. The analysis task builds the full text
  and one candidate clause per block, and skips candidates of fewer than five
  words. It scores and tiers the rest; a Red or Yellow clause gets a clause
  type and a fixed explanation, chosen by keyword.
- **The job table and the three request handlers** (`Jobs`). The upload check
  creates a `processing` record, and the background task's final write
  overwrites it with `completed` or `failed`. The status lookup falls back to
  the result stored in the bucket and caches it. The `/ask` gate answers only
  for completed documents.
- **The life of a document across requests** (`Lifecycle`). This is a state
  machine over the job table, the set of documents whose task is still to
  run, the results stored in the bucket and the ids drawn so far. It also
  has a process restart that empties the table.

`Text` gives Python's `str.isspace`, `strip()`, `split()`, `lower()`, `in`
and `endswith` the meaning the backend relies on. `Lists` and `Wrappers` are
generic helpers.

Some services are parameters rather than modelled code:

- The regular-expression engine is a `Scanner` parameter. It maps a phrase to
  the set of matched patterns and the two flags.
- Each cloud call is one parameter: the OCR result, or a storage or model
  failure, arrives as a value.

Three facts about the code shape the model:

- `get_risk_category` returns one of "Red", "Yellow" and "Green"
  (`backend/app.py:139-148`), so `Tier` has exactly these three values.
- The job records live in the module-level dictionary
  `document_analysis_jobs` (`backend/app.py:136`), in the memory of the
  process that serves the request.
- The background task's final write (`backend/app.py:269` and `274`)
  replaces the record without reading it first.

## Model

| member | source | states |
|---|---|---|
| Scorer.Weight | backend/app.py:51-75 | formality patterns weigh 0.15–0.18 and every other pattern 0.55–0.80 |
| Scorer.MatchedScores | backend/app.py:83-102 | the matched list holds exactly the matched patterns, and is empty exactly when nothing matched |
| Scorer.BaseScore | backend/app.py:107-111 | with a formality entry the base is the largest formality weight, even when heavier patterns matched; otherwise it is the largest weight; never above 0.80 |
| Scorer.ContextBonus | backend/app.py:113-126 | the modifiers lie between -0.15 and +0.46 |
| Scorer.Clamp | backend/app.py:128 | `min(1.0, max(0.0, x))`: 0 below the range, `x` itself within [0, 1000], 1000 above it |
| Scorer.ScorePhrase | backend/app.py:79-129 | the score lies in [0, 1000]; a blank phrase, or one that matched nothing, scores 0 |
| Scorer.RawScore | backend/app.py:104-128 | nothing matched gives 0; the unclamped score never exceeds 0.80 + 0.46 |
| Scorer.ScoreIsDeclared | backend/app.py:79-129 | the list-based scorer computes the set-based score: the top weight of the pool (the formality matches if any, else every match) plus the modifiers for the distinct matched categories, clamped |
| Scorer.RawScoreDeclared | backend/app.py:107-126 | the raw score is the pool's top weight plus the modifiers over the distinct non-formality categories |
| Scorer.BaseScoreIsTopOfPool | backend/app.py:107-111 | the base is the largest weight of the pool |
| Scorer.FormalityCapsScore | backend/app.py:98-128 | any formality match caps the score at 0.18 + 0.46 = 0.64, whatever else matched |
| Scorer.RawScoreNonNegative | backend/app.py:113-128 | the raw score is never negative, so the lower clamp never binds |
| Scorer.SubstantiveMatchScoresHigh | backend/app.py:107-128 | without a formality match, any match scores at least 0.40 |
| Scorer.ModifiersPullTheRightWay | backend/app.py:115-118 | a negation never raises the score and emphasis never lowers it |
| Scorer.MoreMatchesNeverLower | backend/app.py:92-128 | adding matches, with the same formality matches, never lowers the score |
| Scorer.ConsequenceWeighsAtLeast740 | backend/app.py:61-66 | every consequence pattern weighs at least 0.74 |
| Scorer.AllGroupsScoreTop | backend/app.py:113-129 | one match from each non-formality group, with emphasis and no negation, gives a raw score of at least 0.74 + 0.46 = 1.20, clamped to 1.0 |
| Scorer.DefaultWithAllGroupsScoresMost | backend/app.py:113-128 | with the default pattern among them the raw score is the largest possible, 0.80 + 0.08 + 0.30 + 0.05 + 0.03 = 1.26 |
| Scorer.SingleMatchScoresItsWeight | backend/app.py:107-129 | one substantive match with no modifiers scores its own weight |
| Scorer.FormalityOverridesWeight | backend/app.py:107-109 | a substantive match beside a formality match scores the formality weight |
| Scorer.MaxWeight | backend/app.py:109-111 | Python's `max` over the weights: an upper bound attained by some entry |
| Scorer.FormalityHits | backend/app.py:109 | the formality entries are exactly the entries of category formality |
| Scorer.Categories | backend/app.py:120 | the set of distinct categories excludes formality, holds every other matched category, and holds only categories of some match |
| Scorer.CategoriesAtMostFour | backend/app.py:120-122 | at most four distinct categories earn modifiers |
| Scorer.BonusGrows | backend/app.py:120-126 | more distinct categories never lower the modifiers |
| Risk.RiskCategory | backend/app.py:139-148 | Red iff score ≥ 0.70, Yellow iff 0.40 ≤ score < 0.70, Green iff score < 0.40 |
| Risk.RiskMonotone | backend/app.py:139-148 | a higher score never lands in a lower tier |
| Risk.RiskTiersAllReachable | backend/app.py:139-148 | the tier label is one of the three; the boundaries fall at 0.40 and 0.70 |
| Classify.ClauseType.Explanation | backend/app.py:235-247 | the explanation is empty exactly for the General type |
| Classify.TypeByKeywords | backend/app.py:239-247 | Termination Clause iff the lower-cased text contains "terminate"; else Payment Terms iff it contains "pay"; else General Obligation |
| Classify.ClassifyText | backend/app.py:229-256 | a candidate is skipped iff it has fewer than five words; a kept clause keeps its text and box, has the tier of its score, is General with no explanation iff Green, and otherwise has the keyword type and its explanation |
| Classify.ClassifiedScoreIsDeclared | backend/app.py:233 | a kept clause carries the score the scorer is meant to give its text |
| Classify.BlockTextIsPaddedJoin | backend/app.py:210-215 | the block text is the words joined by single spaces plus one trailing space |
| Classify.WordsRoundTrip | backend/app.py:213-231 | for proper words the clause text is their space-join, splitting it gives the words back, and the block is kept iff it has five words or more |
| Classify.CollectCandidates | backend/app.py:200-221 | the loop builds the full text and one stripped candidate per block, in block order |
| Classify.Analyze | backend/app.py:228-256 | the analysed clauses: the classification of each block that is not skipped, in block order, never more than the blocks |
| Classify.AnalyzeCandidates | backend/app.py:228-256 | the loop's clause list is the analysis of the blocks: one classification per candidate that is not skipped, in order |
| Classify.AnalyzeBlocks | backend/app.py:200-256 | the analysis task's full text and analysis, every clause well classified and at least five words long |
| Classify.AnalyzeAppend | backend/app.py:228-256 | the analysis of two runs of blocks is the analysis of each, concatenated |
| Classify.AnalyzeMembers | backend/app.py:228-256 | a clause is in the analysis iff some block classifies to it |
| Classify.AnalyzedClausesWellClassified | backend/app.py:228-256 | every analysed clause is what the classifier makes of its text, has at least five words, and is the candidate text and box of some block |
| Classify.LongBlocksKept | backend/app.py:248-256 | every block of five words or more is emitted: the tier filter keeps all three tiers |
| Classify.FullText | backend/app.py:209-217 | every block's text followed by a blank line, in block order; empty iff there are no blocks |
| Classify.FullTextAppend | backend/app.py:217 | the full text of two runs of blocks is the concatenation of their full texts |
| Classify.CandidateInFullText | backend/app.py:215-219 | every candidate text occurs in the full text |
| Classify.ClauseTextInFullText | backend/app.py:217-250 | every analysed clause's text occurs in the full text |
| Classify.FormalityNeverRed | backend/app.py:98-148 | a phrase with a formality match is never Red |
| Classify.SubstantiveNeverGreen | backend/app.py:229-247 | a kept phrase with a substantive match and no formality match is never Green, so it gets a type and an explanation |
| Classify.NoMatchIsGreen | backend/app.py:104-105 | a kept phrase that matched nothing scores 0 and is General with no explanation |
| Jobs.Upload | backend/app.py:303-339 | no file part, empty name, non-PDF name and storage failure are each rejected exactly in their case; otherwise a processing record with the upload URI is inserted under the fresh id and no other record changes |
| Jobs.PdfNameBySuffix | backend/app.py:309 | a name is accepted iff its last four characters lower-case to ".pdf" |
| Jobs.PdfCheckIgnoresCase | backend/app.py:309 | a name and its lower-cased form are accepted alike |
| Jobs.AnyCasePdfAccepted | backend/app.py:309 | any stem followed by ".PDF" or ".pdf" is accepted |
| Jobs.InnerPdfRejected | backend/app.py:309 | ".pdf" followed by a further extension is rejected, whatever the stem, unless that extension is itself "pdf" in some letter case |
| Jobs.ShortNameRejected | backend/app.py:309 | a name shorter than ".pdf" is rejected |
| Jobs.GcsUriInjective | backend/app.py:311-320 | distinct documents are stored under distinct URIs |
| Jobs.TaskResult | backend/app.py:259-278 | the analysis task's record carries its id, is terminal, and is completed iff every step of the task succeeded |
| Jobs.FinishTask | backend/app.py:269-278 | the analysis task overwrites the document's record with a terminal one and changes no other record |
| Jobs.TaskResultWellClassified | backend/app.py:249-269 | every clause of a completed result is well classified and at least five words long |
| Jobs.GetDocument | backend/app.py:347-364 | the table's record if present; else a storage failure, the stored result (then cached), or not found; found iff in the table or stored and readable |
| Jobs.LookupOnlyCaches | backend/app.py:347-357 | a lookup never drops or changes a record; it only adds the stored one |
| Jobs.LookupIdempotent | backend/app.py:347-364 | a second lookup after a successful one gives the same reply from the cache, whatever the storage does the second time |
| Jobs.Ask | backend/app.py:371-394 | a missing field gives 400; otherwise an unknown or unfinished document gives 404, a model failure 500, and a completed document the fixed answer quoting the query |
| Jobs.AnswerQuotesQuery | backend/app.py:388 | the answer contains the query in single quotes |
| Jobs.AskWaitsForCompletion | backend/app.py:378-380 | a question about a document still processing or failed is refused with 404 |
| Lifecycle.Step | backend/app.py:259-394 | one request or task completion: the bucket changes only at a finished task's own id, and a new entry is a completed record; a finished task is no longer pending and leaves a terminal record; a restart empties the table and the pending set and keeps the bucket; the drawn ids only grow |
| Lifecycle.InitValid | backend/app.py:136 | the empty table satisfies the invariant |
| Lifecycle.UploadPreservesValid | backend/app.py:311-328 | an upload of a fresh id keeps the invariant |
| Lifecycle.TaskPreservesValid | backend/app.py:259-278 | a task completion keeps the invariant |
| Lifecycle.PollPreservesValid | backend/app.py:347-357 | a status lookup keeps the invariant |
| Lifecycle.StepPreservesValid | backend/app.py:298-394 | every enabled request, task completion or restart keeps the invariant: records carry their id, processing records their URI and a pending task, stored results are completed and well formed and agree with the table |
| Lifecycle.RunPreservesValid | backend/app.py:298-394 | the invariant holds after any admissible sequence of events |
| Lifecycle.TerminalRecordIsFinal | backend/app.py:269-278 | once a task has finished, only a restart changes the record, and a restart only drops it |
| Lifecycle.TaskRunsOnce | backend/app.py:311-328 | in any admissible run, restarts included, a document's task finishes at most once: two task completions are for different ids |
| Lifecycle.NoTaskAfterDone | backend/app.py:311-328 | once a drawn id is no longer pending, no later event of the run finishes its task |
| Lifecycle.StoreOnlyGrows | backend/app.py:266-267 | no step removes or rewrites a stored result |
| Lifecycle.StoredResultFound | backend/app.py:347-362 | a stored result is found unchanged whenever the table holds it or the bucket can be read; otherwise the lookup fails with the 500 retrieval error, never a 404 |
| Lifecycle.CompletedAnalysisPersists | backend/app.py:347-364 | a stored analysis stays stored unchanged after any admissible run, restarts included; a later lookup finds it whenever the table holds it or the bucket can be read, and otherwise fails with the retrieval error |
| Lifecycle.UploadThenTaskAnswers | backend/app.py:309-390 | a PDF upload followed by a successful task makes a question with both fields get the answer |
| Lifecycle.RestartNeedsLookupBeforeAsk | backend/app.py:347-380 | after a restart a stored document is refused by `/ask` until a status lookup caches it, and then it is answered |
| Text.Strip | backend/app.py:219 | `strip()` drops exactly the leading and trailing whitespace: empty iff the string is blank |
| Text.StripIdempotent | backend/app.py:219 | stripping twice is stripping once |
| Text.Split | backend/app.py:231 | `split()` gives non-empty words without whitespace, none iff the string is blank |
| Text.SplitCountsWords | backend/app.py:231 | `len(split())` is the number of word starts: positions holding a non-whitespace character that opens the string or follows whitespace |
| Text.SplitKeepsEveryNonSpaceChar | backend/app.py:231 | the words of `split()`, run together, are exactly the string's non-whitespace characters |
| Text.SplitJoinWords | backend/app.py:231 | splitting a single-space join of words gives the words back |
| Text.Lower | backend/app.py:239 | `lower()` maps each character and leaves no ASCII capital |
| Text.LowerIdempotent | backend/app.py:239 | lower-casing twice is lower-casing once |
| Text.ContainsAt | backend/app.py:239 | `p in s` holds iff `p` starts at some position of `s` |
| Text.PaymentMentionsPay | backend/app.py:242 | a text containing "payment" contains "pay", so the second keyword test never changes the type |

## Left out

- The regular expressions of the scorer are not modelled. Each pattern is
  abstracted into whether it matched, as the `Scanner` parameter reports.
- The Google Cloud Vision, Storage and Vertex AI calls, the listing of the
  OCR output files and their JSON parsing are left out. The OCR result is
  given as a list of blocks; each failure is a parameter.
- The thread pool: a task completion is one atomic step.
- Flask routing, CORS, logging and the 404/500 error handlers are left out.
  Only the status code each reply carries is kept.
- JSON values: a `null` `documentId` or `query` is treated as present, and a
  non-string `documentId` is not modelled.
- Floating point is not modelled. The scorer's arithmetic is exact in
  thousandths, and every value is a multiple of 0.01, so rounding to three
  decimals is the identity.
- The duplicated outer OCR block at `backend/app.py:156-180` is left out.
  Its `try` (line 156) has no `except` or `finally`, which is a
  `SyntaxError`, so `app.py` does not import as written; the block also
  uses `output_config` before assigning it. The model describes the inner
  block (181-278) as if lines 156-180 were removed.
- The fixed model name, project and region settings are left out; they only
  configure the cloud clients.
- Several worker processes are left out. `backend/gunicorn.conf.py:5`
  starts `cpu_count() * 2 + 1` workers by default, each with its own
  `document_analysis_jobs` table (`backend/app.py:136`) and its own thread
  pool. A status poll or question that reaches another worker finds no
  record there: a poll falls back to the bucket, and `/ask` answers 404
  until that worker has cached the result. `Lifecycle` models one process.
  It models the effect on a single table through `Restart`, which empties
  the table and keeps the bucket.
- Jobs.Upload: a failure of `executor.submit` (`backend/app.py:328`) is not
  modelled. The handler inserts the `processing` record at lines 323-327
  before the submit, so such a failure answers 500 and leaves that record
  behind. `ThreadPoolExecutor.submit` raises when the executor is shutting
  down (the code never shuts it down, so only at interpreter exit, when the
  in-memory table is lost anyway) or when a worker thread cannot be
  started. In the second case the work item is already queued, so the task
  may still run later and write its final record despite the 500, or never
  run if no worker thread exists. `Lifecycle.TableValid`'s rule that every
  processing record is pending relies on this path being absent.
- Text.Lower: lower-cases ASCII letters only. Python's `str.lower()` also
  maps non-ASCII capitals; the keywords looked for are ASCII, but a non-ASCII
  capital in a clause is left unchanged here.
- Lifecycle.Enabled: takes the freshness of `uuid4` ids as a hypothesis,
  since the random draw is outside the model: an upload's id is never one
  drawn before, restarts included (the `issued` set of `System`).

=== FILE: classify.dfy ===
/**
 The per-block step of the analysis task: the OCR output is a list of text
 blocks, each a list of words with a bounding box. Each block becomes a
 clause candidate; candidates of fewer than five words are skipped, the
 rest are scored, put in a risk tier and, unless Green, given a clause type
 and a fixed explanation chosen by keyword.
 */
module Classify {
  import opened Wrappers
  import opened Lists
  import opened Text
  import opened Scorer
  import opened Risk

  /** Blocks with fewer words than this are skipped. */
  const MinWords: nat := 5

  datatype ClauseType = General | TerminationClause | PaymentTerms | GeneralObligation {

    /** The label the backend emits for the type. */
    function Name(): string {
      match this
      case General => "General"
      case TerminationClause => "Termination Clause"
      case PaymentTerms => "Payment Terms"
      case GeneralObligation => "General Obligation"
    }

    /** The fixed plain-language explanation given for the type; the long
        texts are written as runs of shorter pieces. */
    function Explanation(): (e: string)
      ensures |e| == 0 <==> this == General
    {
      match this
      case General => ""
      case TerminationClause =>
        "This section explains how and when "
        + "the agreement can be ended by either "
        + "party. Pay close attention to the "
        + "reasons and notice periods required."
      case PaymentTerms =>
        "This describes when and how much "
        + "money needs to be paid. Check for "
        + "deadlines and any penalties for "
        + "late payments."
      case GeneralObligation =>
        "This clause outlines a specific duty "
        + "or responsibility that one of the "
        + "parties must follow."
    }
  }

  /** A corner of a bounding box, as the OCR service reports it. */
  datatype Vertex = Vertex(x: int, y: int)

  /** One OCR text block: its words (each the run of its symbols' text) and
      its bounding box. */
  datatype OcrBlock = OcrBlock(words: seq<string>, location: seq<Vertex>)

  /** One analysed clause as stored in the job result. */
  datatype Clause = Clause(
    text: string,
    location: seq<Vertex>,
    score: nat,
    category: Tier,
    explanation: string,
    clauseType: ClauseType)

  /** The scanner stands for the regular expressions run over a phrase. */
  type Scanner = string -> Scan

  /** The block text as the analysis task builds it: every word followed by a space. */
  function BlockText(words: seq<string>): string {
    if |words| == 0 then [] else words[0] + " " + BlockText(words[1..])
  }

  /** A non-empty block text is its words joined by single spaces, plus the
      space after the last word. */
  lemma {:induction false} BlockTextIsPaddedJoin(words: seq<string>)
    requires |words| > 0
    ensures BlockText(words) == JoinWords(words) + " "
    decreases |words|
  {
    if |words| > 1 {
      BlockTextIsPaddedJoin(words[1..]);
      assert BlockText(words) == words[0] + " " + (JoinWords(words[1..]) + " ");
    } else {
      assert words[1..] == [];
    }
  }

  /** The candidate clause text of a block: its block text, stripped. */
  function CandidateText(b: OcrBlock): string {
    Strip(BlockText(b.words))
  }

  /** A block's contribution to the full text: its block text and a blank line. */
  function Paragraph(b: OcrBlock): string {
    BlockText(b.words) + "\n\n"
  }

  /** The document's full text: every block's paragraph, in order. */
  function FullText(blocks: seq<OcrBlock>): (text: string)
    ensures text == [] <==> blocks == []
  {
    if |blocks| == 0 then []
    else FullText(blocks[..|blocks| - 1]) + Paragraph(blocks[|blocks| - 1])
  }

  /** The clause type of a non-Green clause, by keyword in the lower-cased
      text: "terminate" first, then "pay" or "payment", otherwise a general
      obligation. */
  function TypeByKeywords(text: string): (t: ClauseType)
    ensures t != General
    ensures t == TerminationClause <==> Contains(Lower(text), "terminate")
    ensures t == PaymentTerms <==> !Contains(Lower(text), "terminate") && Contains(Lower(text), "pay")
  {
    var lower := Lower(text);
    PaymentMentionsPay(lower);
    if Contains(lower, "terminate") then TerminationClause
    else if Contains(lower, "pay") || Contains(lower, "payment") then PaymentTerms
    else GeneralObligation
  }

  /** Classifies one candidate: skipped when it has fewer than five words;
      otherwise scored, tiered, and typed by keyword unless Green. */
  function ClassifyText(text: string, location: seq<Vertex>, scan: Scan): (r: Option<Clause>)
    ensures r.None? <==> |Split(text)| < MinWords
    ensures r.Some? ==>
      && r.value.text == text && r.value.location == location
      && r.value.score <= 1000
      && r.value.category == RiskCategory(r.value.score)
      && (r.value.clauseType == General <==> r.value.category == Green)
      && (r.value.category != Green ==> r.value.clauseType == TypeByKeywords(text))
      && r.value.explanation == r.value.clauseType.Explanation()
      && (r.value.explanation == "" <==> r.value.category == Green)
  {
    if |Split(text)| < MinWords then None
    else
      var score := ScorePhrase(text, scan);
      var category := RiskCategory(score);
      var clauseType := if category == Red || category == Yellow then TypeByKeywords(text) else General;
      Some(Clause(text, location, score, category, clauseType.Explanation(), clauseType))
  }

  /** A kept clause carries the score the scorer is meant to give its text. */
  lemma ClassifiedScoreIsDeclared(text: string, location: seq<Vertex>, scan: Scan)
    ensures ClassifyText(text, location, scan).Some? ==> IsDeclaredScore(text, scan, ClassifyText(text, location, scan).value.score)
  {
    ScoreIsDeclared(text, scan);
  }

  /** The classification of one OCR block, scanning its candidate text. */
  function ClassifyBlock(b: OcrBlock, scanner: Scanner): Option<Clause> {
    var text := CandidateText(b);
    ClassifyText(text, b.location, scanner(text))
  }

  /** The classifier of one block, for a given scanner. */
  function Classifier(scanner: Scanner): OcrBlock -> Option<Clause> {
    b => ClassifyBlock(b, scanner)
  }

  /** The analysed clauses of a document: the classification of every block
      that is not skipped, in block order. */
  function Analyze(blocks: seq<OcrBlock>, scanner: Scanner): (clauses: seq<Clause>)
    ensures |clauses| <= |blocks|
  {
    Somes(Map(Classifier(scanner), blocks))
  }

  /** A clause is what the classifier makes of its own text and location. */
  predicate WellClassified(c: Clause, scanner: Scanner) {
    ClassifyText(c.text, c.location, scanner(c.text)) == Some(c)
  }

  /** The analysis of two runs of blocks is the analysis of each, in order. */
  lemma AnalyzeAppend(xs: seq<OcrBlock>, ys: seq<OcrBlock>, scanner: Scanner)
    ensures Analyze(xs + ys, scanner) == Analyze(xs, scanner) + Analyze(ys, scanner)
  {
    var f := Classifier(scanner);
    MapAppend(f, xs, ys);
    SomesAppend(Map(f, xs), Map(f, ys));
  }

  /** Analysing one more block adds its clause, if it has one, at the end. */
  lemma AnalyzeSnoc(blocks: seq<OcrBlock>, scanner: Scanner, i: nat)
    requires i < |blocks|
    ensures Analyze(blocks[..i + 1], scanner) == Analyze(blocks[..i], scanner)
      + (if ClassifyBlock(blocks[i], scanner).Some? then [ClassifyBlock(blocks[i], scanner).value] else [])
  {
    var f := Classifier(scanner);
    MapSnoc(f, blocks, i);
    SomesAppend(Map(f, blocks[..i]), [f(blocks[i])]);
    SomesOne(f(blocks[i]));
  }

  /** A clause is in the analysis exactly when some block classifies to it. */
  lemma AnalyzeMembers(blocks: seq<OcrBlock>, scanner: Scanner, c: Clause)
    ensures c in Analyze(blocks, scanner) <==>
      exists i :: 0 <= i < |blocks| && ClassifyBlock(blocks[i], scanner) == Some(c)
  {
    var cs := Map(Classifier(scanner), blocks);
    SomesMembers(cs, c);
    if Some(c) in cs {
      var i :| 0 <= i < |cs| && cs[i] == Some(c);
      assert ClassifyBlock(blocks[i], scanner) == Some(c);
    }
    if exists i :: 0 <= i < |blocks| && ClassifyBlock(blocks[i], scanner) == Some(c) {
      var i :| 0 <= i < |blocks| && ClassifyBlock(blocks[i], scanner) == Some(c);
      assert cs[i] == Some(c);
    }
  }

  /** Every analysed clause is well classified, has at least five words,
      and is the candidate text and bounding box of some block. */
  lemma AnalyzedClausesWellClassified(blocks: seq<OcrBlock>, scanner: Scanner, c: Clause)
    requires c in Analyze(blocks, scanner)
    ensures WellClassified(c, scanner) && |Split(c.text)| >= MinWords
    ensures exists i :: 0 <= i < |blocks| && c.text == CandidateText(blocks[i]) && c.location == blocks[i].location
  {
    AnalyzeMembers(blocks, scanner, c);
    var i :| 0 <= i < |blocks| && ClassifyBlock(blocks[i], scanner) == Some(c);
    var text := CandidateText(blocks[i]);
    assert ClassifyText(text, blocks[i].location, scanner(text)) == Some(c);
  }

  /** Every block with five words or more yields a clause: the tier filter
      keeps Red, Yellow and Green alike, so nothing else is dropped. */
  lemma LongBlocksKept(blocks: seq<OcrBlock>, scanner: Scanner, i: nat)
    requires i < |blocks| && |Split(CandidateText(blocks[i]))| >= MinWords
    ensures ClassifyBlock(blocks[i], scanner).Some?
    ensures ClassifyBlock(blocks[i], scanner).value in Analyze(blocks, scanner)
  {
    AnalyzeMembers(blocks, scanner, ClassifyBlock(blocks[i], scanner).value);
  }

  /** For a block of proper words, the clause text is the words joined by
      single spaces, and the block is kept exactly when it has at least five
      words. */
  lemma WordsRoundTrip(b: OcrBlock, scanner: Scanner)
    requires AreWords(b.words)
    ensures |b.words| > 0 ==> CandidateText(b) == JoinWords(b.words)
    ensures Split(CandidateText(b)) == b.words
    ensures ClassifyBlock(b, scanner).Some? <==> |b.words| >= MinWords
  {
    if |b.words| > 0 {
      BlockTextIsPaddedJoin(b.words);
      StripPaddedJoin(b.words);
    }
    SplitJoinWords(b.words);
  }

  /** The full text of two runs of blocks is the full text of each, in order. */
  lemma {:induction false} FullTextAppend(xs: seq<OcrBlock>, ys: seq<OcrBlock>)
    ensures FullText(xs + ys) == FullText(xs) + FullText(ys)
    decreases |ys|
  {
    if |ys| == 0 {
      assert xs + ys == xs;
    } else {
      var all := xs + ys;
      var front := ys[..|ys| - 1];
      var tail := Paragraph(ys[|ys| - 1]);
      assert all[..|all| - 1] == xs + front;
      assert all[|all| - 1] == ys[|ys| - 1];
      FullTextAppend(xs, front);
      var a, f := FullText(xs), FullText(front);
      assert FullText(all) == (a + f) + tail;
      assert FullText(ys) == f + tail;
      assert (a + f) + tail == a + (f + tail);
    }
  }

  /** The candidate text of every block appears in the full text. */
  lemma CandidateInFullText(blocks: seq<OcrBlock>, k: nat)
    requires k < |blocks|
    ensures Contains(FullText(blocks), CandidateText(blocks[k]))
  {
    CandidateInOwnParagraph(blocks, k);
    FullTextSplit(blocks, k + 1);
    ContainsExtends(FullText(blocks[..k + 1]), FullText(blocks[k + 1..]), CandidateText(blocks[k]));
  }

  /** The full text of a document is that of its first `k` blocks followed
      by that of the rest. */
  lemma FullTextSplit(blocks: seq<OcrBlock>, k: nat)
    requires k <= |blocks|
    ensures FullText(blocks) == FullText(blocks[..k]) + FullText(blocks[k..])
  {
    assert blocks == blocks[..k] + blocks[k..];
    FullTextAppend(blocks[..k], blocks[k..]);
  }

  /** A block's candidate text occurs in its own block text. */
  lemma CandidateInBlockText(b: OcrBlock)
    ensures Contains(BlockText(b.words), CandidateText(b))
  {
    var t := BlockText(b.words);
    var i := StripIsInfix(t);
    ContainsInfix(t[..i], Strip(t), t[i + |Strip(t)|..]);
  }

  /** The candidate text of block `k` occurs in the full text of the first
      `k + 1` blocks. */
  lemma CandidateInOwnParagraph(blocks: seq<OcrBlock>, k: nat)
    requires k < |blocks|
    ensures Contains(FullText(blocks[..k + 1]), CandidateText(blocks[k]))
  {
    CandidateInBlockText(blocks[k]);
    FullTextSnoc(blocks, k);
    ContainsInContext(FullText(blocks[..k]), BlockText(blocks[k].words), "\n\n", CandidateText(blocks[k]));
  }

  /** The text of every analysed clause appears in the full text. */
  lemma ClauseTextInFullText(blocks: seq<OcrBlock>, scanner: Scanner, c: Clause)
    requires c in Analyze(blocks, scanner)
    ensures Contains(FullText(blocks), c.text)
  {
    AnalyzedClausesWellClassified(blocks, scanner, c);
    var k :| 0 <= k < |blocks| && c.text == CandidateText(blocks[k]) && c.location == blocks[k].location;
    CandidateInFullText(blocks, k);
  }

  /** A phrase with a formality match is never Red. */
  lemma FormalityNeverRed(text: string, location: seq<Vertex>, scan: Scan)
    requires AnyFormality(scan)
    ensures ClassifyText(text, location, scan).Some? ==> ClassifyText(text, location, scan).value.category != Red
  {
    FormalityCapsScore(text, scan);
  }

  /** A kept phrase with a substantive match and no formality match is never
      Green, so it always gets a type and an explanation. */
  lemma SubstantiveNeverGreen(text: string, location: seq<Vertex>, scan: Scan)
    requires scan.matched != {} && !AnyFormality(scan)
    ensures ClassifyText(text, location, scan).Some? ==>
      && ClassifyText(text, location, scan).value.category != Green
      && ClassifyText(text, location, scan).value.clauseType == TypeByKeywords(text)
      && ClassifyText(text, location, scan).value.explanation != ""
  {
    if |Split(text)| >= MinWords {
      assert !IsBlank(text);
      SubstantiveMatchScoresHigh(text, scan);
    }
  }

  /** A kept phrase that matched nothing scores 0 and is Green with no
      explanation. */
  lemma NoMatchIsGreen(text: string, location: seq<Vertex>, scan: Scan)
    requires scan.matched == {}
    ensures ClassifyText(text, location, scan).Some? ==>
      && ClassifyText(text, location, scan).value.score == 0
      && ClassifyText(text, location, scan).value.clauseType == General
      && ClassifyText(text, location, scan).value.explanation == ""
  {
  }

  /** Adding one more block to the full text. */
  lemma FullTextSnoc(blocks: seq<OcrBlock>, i: nat)
    requires i < |blocks|
    ensures FullText(blocks[..i + 1]) == FullText(blocks[..i]) + BlockText(blocks[i].words) + "\n\n"
  {
    var front := blocks[..i + 1];
    assert front[..i] == blocks[..i] && front[i] == blocks[i];
  }

  /** A block's candidate clause before analysis: stripped text and
      bounding box. */
  datatype Candidate = Candidate(text: string, location: seq<Vertex>)

  /** The candidate clause of one block. */
  function CandidateOf(b: OcrBlock): Candidate {
    Candidate(CandidateText(b), b.location)
  }

  /** Step two of the analysis task: walks the OCR blocks, building the full text
      and one candidate clause per block. */
  method CollectCandidates(blocks: seq<OcrBlock>) returns (fullText: string, candidates: seq<Candidate>)
    ensures fullText == FullText(blocks)
    ensures candidates == Map(CandidateOf, blocks)
  {
    fullText := "";
    candidates := [];
    for i := 0 to |blocks|
      invariant fullText == FullText(blocks[..i])
      invariant candidates == Map(CandidateOf, blocks[..i])
    {
      var blockText := BlockText(blocks[i].words);
      FullTextSnoc(blocks, i);
      MapSnoc(CandidateOf, blocks, i);
      fullText := fullText + blockText + "\n\n";
      candidates := candidates + [Candidate(Strip(blockText), blocks[i].location)];
    }
    assert blocks[..|blocks|] == blocks;
  }

  /** Step three of the analysis task: scores, tiers and types every candidate of at
      least five words, in order. */
  method AnalyzeCandidates(blocks: seq<OcrBlock>, candidates: seq<Candidate>, scanner: Scanner) returns (analysis: seq<Clause>)
    requires candidates == Map(CandidateOf, blocks)
    ensures analysis == Analyze(blocks, scanner)
  {
    analysis := [];
    for i := 0 to |candidates|
      invariant analysis == Analyze(blocks[..i], scanner)
    {
      var text := candidates[i].text;
      if |Split(text)| >= MinWords {
        var score := ScorePhrase(text, scanner(text));
        var category := RiskCategory(score);
        var clauseType := General;
        if category == Red || category == Yellow {
          clauseType := TypeByKeywords(text);
        }
        analysis := analysis + [Clause(text, candidates[i].location, score, category, clauseType.Explanation(), clauseType)];
      }
      AnalyzeSnoc(blocks, scanner, i);
    }
    assert blocks[..|blocks|] == blocks;
  }

  /** The analysis task's processing of the OCR output: the full text and the
      analysed clauses, every one of them well classified. */
  method AnalyzeBlocks(blocks: seq<OcrBlock>, scanner: Scanner) returns (fullText: string, analysis: seq<Clause>)
    ensures fullText == FullText(blocks)
    ensures analysis == Analyze(blocks, scanner)
    ensures forall c :: c in analysis ==> WellClassified(c, scanner) && |Split(c.text)| >= MinWords
  {
    var candidates;
    fullText, candidates := CollectCandidates(blocks);
    analysis := AnalyzeCandidates(blocks, candidates, scanner);
    forall c | c in analysis ensures WellClassified(c, scanner) && |Split(c.text)| >= MinWords {
      AnalyzedClausesWellClassified(blocks, scanner, c);
    }
  }
}

=== FILE: jobs.dfy ===
/**
 The backend's job table and its three request handlers: the upload check
 that creates a job, the background task's final write, the status lookup
 with its fallback to stored results, and the gate in front of the
 question-answering endpoint.
 */
module Jobs {
  import opened Wrappers
  import opened Text
  import opened Classify

  type DocId = string

  /** A job record as the table holds it; `Status` is its "status" field. */
  datatype Job =
    | Processing(documentId: DocId, gcsUri: string)
    | Completed(documentId: DocId, fullText: string, analysis: seq<Clause>)
    | Failed(documentId: DocId, error: string)
  {
    function Status(): string {
      match this
      case Processing(_, _) => "processing"
      case Completed(_, _, _) => "completed"
      case Failed(_, _) => "failed"
    }

    /** The analysis task has finished with this job, one way or the other. */
    predicate IsTerminal() {
      !Processing?
    }
  }

  /** The in-memory table from document id to job record. */
  type JobTable = map<DocId, Job>

  // ---------------------------------------------------------------------
  // Upload.

  /** The "file" part of an upload request; `filename` is None when the part
      carries no file name at all. */
  datatype FilePart = FilePart(filename: Option<string>)

  datatype UploadError = NoFilePart | NoFileSelected | NotPdf | UploadFailed(message: string) {
    function HttpStatus(): nat {
      if UploadFailed? then 500 else 400
    }

    function Message(): string {
      match this
      case NoFilePart => "No file part in the request"
      case NoFileSelected => "No file selected"
      case NotPdf => "Invalid file type. Please upload a PDF."
      case UploadFailed(m) => "An error occurred: " + m
    }
  }

  /** The upload reply: the new table and the id reported back with status
      202, or an error. */
  datatype UploadReply = Accepted(jobs: JobTable, documentId: DocId) | Rejected(error: UploadError)

  /** Object name under which an upload is stored in the bucket. */
  function ObjectName(id: DocId): string {
    "uploads/" + id + ".pdf"
  }

  /** The storage URI of an uploaded document. */
  function GcsUri(bucket: string, id: DocId): string {
    "gs://" + bucket + "/" + ObjectName(id)
  }

  /** `filename.lower().endswith('.pdf')`. */
  predicate IsPdfName(name: string) {
    EndsWith(Lower(name), ".pdf")
  }

  /** A part is accepted for upload when it has a file name that ends in
      ".pdf" in any letter case. The part is falsy without a file name, so
      the extension check is never reached then. */
  predicate IsPdfPart(file: FilePart) {
    file.filename.Some? && IsPdfName(file.filename.value)
  }

  /** `upload_document`: `id` is the fresh uuid the handler draws and
      `storeError` the failure, if any, of writing the file to the bucket. */
  function Upload(jobs: JobTable, file: Option<FilePart>, id: DocId, bucket: string, storeError: Option<string>): (r: UploadReply)
    ensures r == Rejected(NoFilePart) <==> file.None?
    ensures r == Rejected(NoFileSelected) <==> file == Some(FilePart(Some("")))
    ensures r == Rejected(NotPdf) <==> file.Some? && file.value.filename != Some("") && !IsPdfPart(file.value)
    ensures (r.Rejected? && r.error.UploadFailed?) <==> file.Some? && IsPdfPart(file.value) && storeError.Some?
    ensures r.Accepted? <==> file.Some? && IsPdfPart(file.value) && storeError.None?
    ensures r.Accepted? ==> r.documentId == id && id in r.jobs && r.jobs[id] == Processing(id, GcsUri(bucket, id))
    ensures r.Accepted? ==> forall k :: k != id ==> (k in r.jobs <==> k in jobs) && (k in jobs ==> r.jobs[k] == jobs[k])
  {
    if file.None? then Rejected(NoFilePart)
    else if file.value.filename == Some("") then Rejected(NoFileSelected)
    else if IsPdfPart(file.value) then
      if storeError.Some? then Rejected(UploadFailed(storeError.value))
      else Accepted(jobs[id := Processing(id, GcsUri(bucket, id))], id)
    else Rejected(NotPdf)
  }

  /** The extension check ignores letter case: a name and its lower-cased
      form are accepted alike. */
  lemma PdfCheckIgnoresCase(name: string)
    ensures IsPdfName(name) <==> IsPdfName(Lower(name))
  {
    LowerIdempotent(name);
  }

  /** A name is accepted exactly when its last four characters lower-case
      to ".pdf". */
  lemma PdfNameBySuffix(name: string)
    ensures IsPdfName(name) <==> |name| >= 4 && Lower(name[|name| - 4..]) == ".pdf"
  {
    if |name| >= 4 {
      LowerSuffix(name, |name| - 4);
    }
  }

  /** Any stem followed by ".PDF" counts as well as one followed by ".pdf". */
  lemma AnyCasePdfAccepted(stem: string)
    ensures IsPdfName(stem + ".PDF") && IsPdfName(stem + ".pdf")
  {
    var upper := stem + ".PDF";
    var lower := stem + ".pdf";
    assert upper[|upper| - 4..] == ".PDF";
    assert lower[|lower| - 4..] == ".pdf";
    assert Lower(".PDF") == ".pdf" by {
      var l := Lower(".PDF");
      assert l[0] == '.' && l[1] == 'p' && l[2] == 'd' && l[3] == 'f';
    }
    assert Lower(".pdf") == ".pdf" by {
      var l := Lower(".pdf");
      assert l[0] == '.' && l[1] == 'p' && l[2] == 'd' && l[3] == 'f';
    }
    PdfNameBySuffix(upper);
    PdfNameBySuffix(lower);
  }

  /** The extension must come last: ".pdf" followed by a further
      extension is rejected, unless that extension is itself "pdf" in some
      letter case. */
  lemma InnerPdfRejected(stem: string, ext: string)
    requires 1 <= |ext| && '.' !in ext && Lower(ext) != "pdf"
    ensures !IsPdfName(stem + ".pdf." + ext)
  {
    var name := stem + ".pdf." + ext;
    var tail := name[|name| - 4..];
    PdfNameBySuffix(name);
    if |ext| >= 4 {
      assert tail[0] == ext[|ext| - 4];
      assert Lower(tail)[0] != '.';
    } else if |ext| == 3 {
      assert tail == "." + ext;
      assert Lower(tail)[1..] == Lower(ext) by {
        LowerSuffix(tail, 1);
      }
    } else {
      assert tail[0] == (if |ext| == 1 then 'd' else 'f');
      assert Lower(tail)[0] != '.';
    }
  }

  /** A name shorter than the extension is never accepted. */
  lemma ShortNameRejected(name: string)
    requires |name| < 4
    ensures !IsPdfName(name)
  {
  }

  /** Distinct documents are stored under distinct URIs. */
  lemma GcsUriInjective(bucket: string, a: DocId, b: DocId)
    requires GcsUri(bucket, a) == GcsUri(bucket, b)
    ensures a == b
  {
    var lead := "gs://" + bucket + "/uploads/";
    var ua := GcsUri(bucket, a);
    assert ua == lead + a + ".pdf";
    assert GcsUri(bucket, b) == lead + b + ".pdf";
    assert |a| == |b|;
    assert a == ua[|lead|..|lead| + |a|];
  }

  // ---------------------------------------------------------------------
  // The background task's final write.

  /** How the analysis task ends: OCR and every storage write succeeded and produced
      these blocks, or some step raised this error. */
  datatype TaskOutcome = OcrDone(blocks: seq<OcrBlock>) | TaskFailed(error: string)

  /** The record the analysis task writes for a document. */
  function TaskResult(id: DocId, outcome: TaskOutcome, scanner: Scanner): (job: Job)
    ensures job.documentId == id && job.IsTerminal()
    ensures job.Completed? <==> outcome.OcrDone?
  {
    match outcome
    case OcrDone(blocks) => Completed(id, FullText(blocks), Analyze(blocks, scanner))
    case TaskFailed(error) => Failed(id, error)
  }

  /** The analysis task's last step: the record overwrites whatever the table held
      for `id`; no other entry changes. */
  function FinishTask(jobs: JobTable, id: DocId, outcome: TaskOutcome, scanner: Scanner): (r: JobTable)
    ensures id in r && r[id].documentId == id && r[id].IsTerminal()
    ensures forall k :: k != id ==> (k in r <==> k in jobs) && (k in jobs ==> r[k] == jobs[k])
  {
    jobs[id := TaskResult(id, outcome, scanner)]
  }

  /** Every clause of a completed result is well classified and long enough. */
  lemma TaskResultWellClassified(id: DocId, outcome: TaskOutcome, scanner: Scanner)
    ensures TaskResult(id, outcome, scanner).Completed? ==>
      forall c :: c in TaskResult(id, outcome, scanner).analysis ==> WellClassified(c, scanner) && |Split(c.text)| >= MinWords
  {
    if outcome.OcrDone? {
      forall c | c in Analyze(outcome.blocks, scanner)
        ensures WellClassified(c, scanner) && |Split(c.text)| >= MinWords
      {
        AnalyzedClausesWellClassified(outcome.blocks, scanner, c);
      }
    }
  }

  // ---------------------------------------------------------------------
  // Status lookup.

  datatype DocReply = Found(job: Job) | NotFound | RetrievalFailed(message: string) {
    function HttpStatus(): nat {
      match this
      case Found(_) => 200
      case NotFound => 404
      case RetrievalFailed(_) => 500
    }
  }

  /** A reply together with the table after the request. */
  datatype Lookup = Lookup(reply: DocReply, jobs: JobTable)

  /** `get_document_analysis`: the table's record if there is one; otherwise
      the stored result, which is then cached in the table. `store` maps each
      document id to its stored result and `storeError` is the failure, if
      any, of reading it. */
  function GetDocument(jobs: JobTable, id: DocId, store: map<DocId, Job>, storeError: Option<string>): (r: Lookup)
    ensures id in jobs ==> r == Lookup(Found(jobs[id]), jobs)
    ensures id !in jobs && storeError.Some? ==>
      r == Lookup(RetrievalFailed("Could not retrieve document: " + storeError.value), jobs)
    ensures id !in jobs && storeError.None? && id in store ==> r == Lookup(Found(store[id]), jobs[id := store[id]])
    ensures id !in jobs && storeError.None? && id !in store ==> r == Lookup(NotFound, jobs)
    ensures r.reply.Found? <==> id in jobs || (storeError.None? && id in store)
  {
    if id in jobs then Lookup(Found(jobs[id]), jobs)
    else if storeError.Some? then Lookup(RetrievalFailed("Could not retrieve document: " + storeError.value), jobs)
    else if id in store then Lookup(Found(store[id]), jobs[id := store[id]])
    else Lookup(NotFound, jobs)
  }

  /** A lookup never loses or changes a record: it can only add the stored
      one. */
  lemma LookupOnlyCaches(jobs: JobTable, id: DocId, store: map<DocId, Job>, storeError: Option<string>)
    ensures var after := GetDocument(jobs, id, store, storeError).jobs;
      && (forall k :: k in jobs ==> k in after && after[k] == jobs[k])
      && (forall k :: k in after && k !in jobs ==> k == id && id in store && after[k] == store[id])
  {
  }

  /** Looking the same document up twice gives the same reply, once the
      first lookup has cached it: the second is answered from the table,
      whether or not the bucket could be read then. */
  lemma LookupIdempotent(jobs: JobTable, id: DocId, store: map<DocId, Job>, storeError: Option<string>, laterError: Option<string>)
    requires GetDocument(jobs, id, store, storeError).reply.Found?
    ensures var first := GetDocument(jobs, id, store, storeError);
      var second := GetDocument(first.jobs, id, store, laterError);
      second == Lookup(first.reply, first.jobs)
  {
  }

  // ---------------------------------------------------------------------
  // Questions.

  /** The JSON body of a question: either field may be missing. */
  datatype AskRequest = AskRequest(documentId: Option<DocId>, query: Option<string>)

  datatype AskReply = Answer(answer: string) | MissingField | NotReady | AiFailed(message: string) {
    function HttpStatus(): nat {
      match this
      case Answer(_) => 200
      case MissingField => 400
      case NotReady => 404
      case AiFailed(_) => 500
    }
  }

  predicate HasFields(req: AskRequest) {
    req.documentId.Some? && req.query.Some?
  }

  /** The document's analysis has completed. */
  predicate IsReady(jobs: JobTable, id: DocId) {
    id in jobs && jobs[id].Completed?
  }

  const AnswerLead: string := "In the context of the document, the phrase "
  const AnswerTail: string :=
    " means that [mock explanation based on the query]. This is a standard way of stating this type of obligation and you should pay attention to any associated deadlines or conditions mentioned nearby."

  /** The query in single quotes. */
  function Quoted(query: string): string {
    "'" + query + "'"
  }

  /** The fixed answer the endpoint gives, quoting the query. */
  function MockAnswer(query: string): string {
    AnswerLead + Quoted(query) + AnswerTail
  }

  /** `ask_question`: both fields must be present and the document's analysis
      completed; `aiError` is the failure, if any, of setting up the model
      client. */
  function Ask(jobs: JobTable, req: AskRequest, aiError: Option<string>): (r: AskReply)
    ensures r == MissingField <==> !HasFields(req)
    ensures r == NotReady <==> HasFields(req) && !IsReady(jobs, req.documentId.value)
    ensures r.AiFailed? <==> HasFields(req) && IsReady(jobs, req.documentId.value) && aiError.Some?
    ensures r.Answer? <==> HasFields(req) && IsReady(jobs, req.documentId.value) && aiError.None?
    ensures r.Answer? ==> r.answer == MockAnswer(req.query.value)
  {
    if req.documentId.None? || req.query.None? then MissingField
    else
      var id := req.documentId.value;
      if id !in jobs || !jobs[id].Completed? then NotReady
      else if aiError.Some? then AiFailed("Failed to get explanation from AI model: " + aiError.value)
      else Answer(MockAnswer(req.query.value))
  }

  /** The answer quotes the query it was asked about. */
  lemma AnswerQuotesQuery(jobs: JobTable, req: AskRequest, aiError: Option<string>)
    ensures Ask(jobs, req, aiError).Answer? ==> Contains(Ask(jobs, req, aiError).answer, Quoted(req.query.value))
  {
    if Ask(jobs, req, aiError).Answer? {
      ContainsInfix(AnswerLead, Quoted(req.query.value), AnswerTail);
    }
  }

  /** A question about a document still processing or failed is refused with
      404, whatever the query. */
  lemma AskWaitsForCompletion(jobs: JobTable, id: DocId, query: string, aiError: Option<string>)
    requires id in jobs && !jobs[id].Completed?
    ensures Ask(jobs, AskRequest(Some(id), Some(query)), aiError) == NotReady
    ensures Ask(jobs, AskRequest(Some(id), Some(query)), aiError).HttpStatus() == 404
  {
  }
}

=== FILE: lifecycle.dfy ===
/**
 The life of a document across requests: the in-memory job table, the set
 of documents whose background task has not yet run, the results
 persisted to the bucket, and the document ids drawn so far. Each request
 or task completion is one step; a restart of the process empties the
 table and kills pending tasks but leaves the bucket as it was.
 */
module Lifecycle {
  import opened Wrappers
  import opened Text
  import opened Classify
  import opened Jobs

  /** What stays fixed for a run of the backend: the bucket name and the
      regular-expression scanner. */
  datatype Env = Env(bucket: string, scanner: Scanner)

  /** The backend's state: the job table, the documents whose task is still
      to finish, the stored final results by document id, and every id an
      upload has drawn so far. */
  datatype System = System(jobs: JobTable, pending: set<DocId>, store: map<DocId, Job>, issued: set<DocId>)

  datatype Event =
    | UploadEvent(file: Option<FilePart>, id: DocId, storeError: Option<string>)
    | TaskEvent(id: DocId, outcome: TaskOutcome)
    | PollEvent(id: DocId, storeError: Option<string>)
    | AskEvent(request: AskRequest, aiError: Option<string>)
    | Restart

  /** When an event can happen: an upload draws an id never drawn before
      (a fresh uuid4), and a task finishes only for a document whose task is
      still pending. */
  predicate Enabled(sys: System, e: Event) {
    match e
    case UploadEvent(_, id, _) => id !in sys.issued
    case TaskEvent(id, _) => id in sys.pending
    case _ => true
  }

  /** One step of the backend. An upload that passes the file checks draws
      its id. A completed task writes its result to the bucket before it
      updates the table; a failed one writes nothing. */
  function Step(env: Env, sys: System, e: Event): (next: System)
    ensures forall k :: k in sys.store && !(e.TaskEvent? && k == e.id) ==> k in next.store && next.store[k] == sys.store[k]
    ensures forall k :: k in next.store && k !in sys.store ==> e.TaskEvent? && k == e.id && next.store[k].Completed?
    ensures e.TaskEvent? ==> e.id !in next.pending && e.id in next.jobs && next.jobs[e.id].IsTerminal()
    ensures e.Restart? ==> next.jobs == map[] && next.pending == {} && next.store == sys.store
    ensures sys.issued <= next.issued
  {
    match e
    case UploadEvent(file, id, storeError) =>
      var r := Upload(sys.jobs, file, id, env.bucket, storeError);
      var issued := if file.Some? && IsPdfPart(file.value) then sys.issued + {id} else sys.issued;
      if r.Accepted? then System(r.jobs, sys.pending + {id}, sys.store, issued) else sys.(issued := issued)
    case TaskEvent(id, outcome) =>
      var job := TaskResult(id, outcome, env.scanner);
      var store := if job.Completed? then sys.store[id := job] else sys.store;
      sys.(jobs := FinishTask(sys.jobs, id, outcome, env.scanner), pending := sys.pending - {id}, store := store)
    case PollEvent(id, storeError) =>
      sys.(jobs := GetDocument(sys.jobs, id, sys.store, storeError).jobs)
    case AskEvent(_, _) => sys
    case Restart => sys.(jobs := map[], pending := {})
  }

  /** Every clause of a result is well classified. */
  predicate ResultWellFormed(job: Job, env: Env) {
    job.Completed? ==> forall c :: c in job.analysis ==> WellClassified(c, env.scanner)
  }

  /** The table's own invariant: every record carries its own id, a record
      still processing carries its upload URI, and the pending documents
      are exactly those still processing. */
  predicate TableValid(env: Env, sys: System) {
    && (forall id :: id in sys.jobs ==> sys.jobs[id].documentId == id)
    && (forall id :: id in sys.jobs && sys.jobs[id].Processing? ==> sys.jobs[id].gcsUri == GcsUri(env.bucket, id))
    && (forall id :: id in sys.pending ==> id in sys.jobs && sys.jobs[id].Processing?)
    && (forall id :: id in sys.jobs && sys.jobs[id].Processing? ==> id in sys.pending)
  }

  /** Every stored result is a completed, well-formed record for its id. */
  predicate StoreValid(env: Env, sys: System) {
    && (forall id :: id in sys.store ==> sys.store[id].Completed? && sys.store[id].documentId == id)
    && (forall id :: id in sys.store ==> ResultWellFormed(sys.store[id], env))
  }

  /** How the table and the store agree: a completed record in the table is
      stored, a record both in the table and stored is the same in both (so
      it survives a restart), and a pending document has no stored result. */
  predicate Linked(sys: System) {
    && (forall id :: id in sys.jobs && sys.jobs[id].Completed? ==> id in sys.store)
    && (forall id :: id in sys.jobs && id in sys.store ==> sys.jobs[id] == sys.store[id])
    && (forall id :: id in sys.pending ==> id !in sys.store)
  }

  /** Every document the backend knows of has a drawn id. */
  predicate IssuedCovers(sys: System) {
    && (forall id :: id in sys.jobs ==> id in sys.issued)
    && (forall id :: id in sys.pending ==> id in sys.issued)
    && (forall id :: id in sys.store ==> id in sys.issued)
  }

  /** The invariant of the backend's state. */
  predicate Valid(env: Env, sys: System) {
    TableValid(env, sys) && StoreValid(env, sys) && Linked(sys) && IssuedCovers(sys)
  }

  const Init: System := System(map[], {}, map[], {})

  lemma InitValid(env: Env)
    ensures Valid(env, Init)
  {
  }

  /** A completed task's result is well formed. */
  lemma TaskResultWellFormed(env: Env, id: DocId, outcome: TaskOutcome)
    ensures ResultWellFormed(TaskResult(id, outcome, env.scanner), env)
  {
    TaskResultWellClassified(id, outcome, env.scanner);
  }

  /** An upload of a fresh id keeps the invariant. */
  lemma UploadPreservesValid(env: Env, sys: System, file: Option<FilePart>, id: DocId, storeError: Option<string>)
    requires Valid(env, sys) && id !in sys.issued
    ensures Valid(env, Step(env, sys, UploadEvent(file, id, storeError)))
  {
    assert id !in sys.jobs && id !in sys.pending && id !in sys.store;
    var r := Upload(sys.jobs, file, id, env.bucket, storeError);
    if r.Accepted? {
      UploadAcceptedKeepsValid(env, sys, r.jobs, id, Step(env, sys, UploadEvent(file, id, storeError)));
    }
  }

  /** Inserting a fresh processing record, pending and drawn, keeps the
      invariant. */
  lemma UploadAcceptedKeepsValid(env: Env, sys: System, jobs: JobTable, id: DocId, next: System)
    requires Valid(env, sys) && id !in sys.jobs && id !in sys.pending && id !in sys.store
    requires id in jobs && jobs[id] == Processing(id, GcsUri(env.bucket, id))
    requires forall k :: k != id ==> (k in jobs <==> k in sys.jobs) && (k in sys.jobs ==> jobs[k] == sys.jobs[k])
    requires next == System(jobs, sys.pending + {id}, sys.store, sys.issued + {id})
    ensures Valid(env, next)
  {
    UploadKeepsTable(env, sys, jobs, id, next);
  }

  /** The fresh record is processing, pending and carries its upload URI. */
  lemma UploadKeepsTable(env: Env, sys: System, jobs: JobTable, id: DocId, next: System)
    requires TableValid(env, sys) && id !in sys.jobs && id !in sys.pending
    requires id in jobs && jobs[id] == Processing(id, GcsUri(env.bucket, id))
    requires forall k :: k != id ==> (k in jobs <==> k in sys.jobs) && (k in sys.jobs ==> jobs[k] == sys.jobs[k])
    requires next == System(jobs, sys.pending + {id}, sys.store, sys.issued + {id})
    ensures TableValid(env, next)
  {
  }

  /** The completion of a pending task keeps the invariant. */
  lemma TaskPreservesValid(env: Env, sys: System, id: DocId, outcome: TaskOutcome)
    requires Valid(env, sys) && id in sys.pending
    ensures Valid(env, Step(env, sys, TaskEvent(id, outcome)))
  {
    TaskKeepsTable(env, sys, id, outcome);
    TaskKeepsStore(env, sys, id, outcome);
    TaskKeepsLinks(env, sys, id, outcome);
  }

  /** A finished task leaves no record processing without a pending task. */
  lemma TaskKeepsTable(env: Env, sys: System, id: DocId, outcome: TaskOutcome)
    requires TableValid(env, sys) && id in sys.pending
    ensures TableValid(env, Step(env, sys, TaskEvent(id, outcome)))
  {
  }

  /** A finished task stores only a completed, well-formed result. */
  lemma TaskKeepsStore(env: Env, sys: System, id: DocId, outcome: TaskOutcome)
    requires StoreValid(env, sys)
    ensures StoreValid(env, Step(env, sys, TaskEvent(id, outcome)))
  {
    TaskResultWellFormed(env, id, outcome);
  }

  /** A finished task's record is stored exactly when it completed. */
  lemma TaskKeepsLinks(env: Env, sys: System, id: DocId, outcome: TaskOutcome)
    requires Linked(sys) && id in sys.pending
    ensures Linked(Step(env, sys, TaskEvent(id, outcome)))
  {
  }

  /** A status poll keeps the invariant: it only copies a stored result into
      the table. */
  lemma PollPreservesValid(env: Env, sys: System, id: DocId, storeError: Option<string>)
    requires Valid(env, sys)
    ensures Valid(env, Step(env, sys, PollEvent(id, storeError)))
  {
    LookupOnlyCaches(sys.jobs, id, sys.store, storeError);
  }

  /** Every enabled step keeps the invariant. */
  lemma StepPreservesValid(env: Env, sys: System, e: Event)
    requires Valid(env, sys) && Enabled(sys, e)
    ensures Valid(env, Step(env, sys, e))
  {
    match e
    case UploadEvent(file, id, storeError) =>
      UploadPreservesValid(env, sys, file, id, storeError);
    case TaskEvent(id, outcome) =>
      TaskPreservesValid(env, sys, id, outcome);
    case PollEvent(id, storeError) =>
      PollPreservesValid(env, sys, id, storeError);
    case AskEvent(_, _) =>
    case Restart =>
  }

  /** Once a document's task has finished, nothing but a restart changes its
      record, and a restart only drops it from the table. */
  lemma TerminalRecordIsFinal(env: Env, sys: System, e: Event, id: DocId)
    requires Valid(env, sys) && Enabled(sys, e)
    requires id in sys.jobs && sys.jobs[id].IsTerminal()
    ensures e != Restart ==> id in Step(env, sys, e).jobs && Step(env, sys, e).jobs[id] == sys.jobs[id]
    ensures e == Restart ==> id !in Step(env, sys, e).jobs
  {
    match e
    case UploadEvent(file, uid, storeError) =>
    case TaskEvent(tid, outcome) =>
      assert tid != id;
    case PollEvent(pid, storeError) =>
      LookupOnlyCaches(sys.jobs, pid, sys.store, storeError);
    case AskEvent(_, _) =>
    case Restart =>
  }

  /** The stored results only grow: no step removes or rewrites one. */
  lemma StoreOnlyGrows(env: Env, sys: System, e: Event)
    requires Valid(env, sys) && Enabled(sys, e)
    ensures forall id :: id in sys.store ==> id in Step(env, sys, e).store && Step(env, sys, e).store[id] == sys.store[id]
  {
  }

  /** A stored result is never lost: the lookup finds it, with the same
      analysis, whenever the table holds it or the bucket can be read;
      otherwise the lookup fails with a retrieval error, never a 404. */
  lemma StoredResultFound(env: Env, sys: System, id: DocId, storeError: Option<string>)
    requires Valid(env, sys) && id in sys.store
    ensures var reply := GetDocument(sys.jobs, id, sys.store, storeError).reply;
      && (id in sys.jobs || storeError.None? ==> reply == Found(sys.store[id]))
      && (id !in sys.jobs && storeError.Some? ==> reply.RetrievalFailed?)
  {
  }

  /** The state after a sequence of events. */
  function Run(env: Env, sys: System, events: seq<Event>): System
    decreases |events|
  {
    if |events| == 0 then sys else Run(env, Step(env, sys, events[0]), events[1..])
  }

  /** Every event of the sequence is enabled when it happens. */
  predicate Admissible(env: Env, sys: System, events: seq<Event>)
    decreases |events|
  {
    |events| == 0 || (Enabled(sys, events[0]) && Admissible(env, Step(env, sys, events[0]), events[1..]))
  }

  /** The invariant holds after any admissible sequence of events. */
  lemma {:induction false} RunPreservesValid(env: Env, sys: System, events: seq<Event>)
    requires Valid(env, sys) && Admissible(env, sys, events)
    ensures Valid(env, Run(env, sys, events))
    decreases |events|
  {
    if |events| > 0 {
      StepPreservesValid(env, sys, events[0]);
      RunPreservesValid(env, Step(env, sys, events[0]), events[1..]);
    }
  }

  /** A completed analysis, once stored, stays stored unchanged after any
      admissible sequence of events, restarts included. A later lookup finds
      it whenever the table holds it or the bucket can be read, and
      otherwise fails with a retrieval error. */
  lemma {:induction false} CompletedAnalysisPersists(env: Env, sys: System, events: seq<Event>, id: DocId, storeError: Option<string>)
    requires Valid(env, sys) && Admissible(env, sys, events) && id in sys.store
    ensures id in Run(env, sys, events).store && Run(env, sys, events).store[id] == sys.store[id]
    ensures var last := Run(env, sys, events);
      var reply := GetDocument(last.jobs, id, last.store, storeError).reply;
      && (id in last.jobs || storeError.None? ==> reply == Found(sys.store[id]))
      && (id !in last.jobs && storeError.Some? ==> reply.RetrievalFailed?)
    decreases |events|
  {
    if |events| == 0 {
      StoredResultFound(env, sys, id, storeError);
    } else {
      StoreOnlyGrows(env, sys, events[0]);
      StepPreservesValid(env, sys, events[0]);
      CompletedAnalysisPersists(env, Step(env, sys, events[0]), events[1..], id, storeError);
    }
  }

  /** Once a document's task has finished and its id has been drawn, no
      later event of an admissible run finishes that task again. */
  lemma {:induction false} NoTaskAfterDone(env: Env, sys: System, events: seq<Event>, id: DocId)
    requires Admissible(env, sys, events) && id in sys.issued && id !in sys.pending
    ensures forall k :: 0 <= k < |events| ==> !(events[k].TaskEvent? && events[k].id == id)
    decreases |events|
  {
    if |events| > 0 {
      var next := Step(env, sys, events[0]);
      assert id !in next.pending;
      NoTaskAfterDone(env, next, events[1..], id);
      forall k | 1 <= k < |events| ensures !(events[k].TaskEvent? && events[k].id == id) {
        assert events[k] == events[1..][k - 1];
      }
    }
  }

  /** A document's task finishes at most once in any admissible run, restarts
      included: two task completions of the run are for different ids. */
  lemma {:induction false} TaskRunsOnce(env: Env, sys: System, events: seq<Event>, i: nat, j: nat)
    requires Valid(env, sys) && Admissible(env, sys, events)
    requires i < j < |events| && events[i].TaskEvent? && events[j].TaskEvent?
    ensures events[i].id != events[j].id
    decreases i
  {
    var next := Step(env, sys, events[0]);
    assert events[j] == events[1..][j - 1];
    if i == 0 {
      var id := events[0].id;
      assert id in sys.pending && id in sys.issued;
      NoTaskAfterDone(env, next, events[1..], id);
    } else {
      StepPreservesValid(env, sys, events[0]);
      assert events[i] == events[1..][i - 1];
      TaskRunsOnce(env, next, events[1..], i - 1, j - 1);
    }
  }

  /** A successful upload followed by a successful task makes the document
      answerable: a question with both fields gets the answer. */
  lemma UploadThenTaskAnswers(env: Env, sys: System, name: string, id: DocId, blocks: seq<OcrBlock>, query: string)
    requires Valid(env, sys) && IsPdfName(name) && id !in sys.issued
    ensures var uploaded := Step(env, sys, UploadEvent(Some(FilePart(Some(name))), id, None));
      && id in uploaded.pending
      && var done := Step(env, uploaded, TaskEvent(id, OcrDone(blocks)));
      Ask(done.jobs, AskRequest(Some(id), Some(query)), None) == Answer(MockAnswer(query))
  {
  }

  /** The question endpoint reads only the table: after a restart a stored
      document is refused until a status lookup has cached it again. */
  lemma RestartNeedsLookupBeforeAsk(env: Env, sys: System, id: DocId, query: string)
    requires Valid(env, sys) && id in sys.store
    ensures var restarted := Step(env, sys, Restart);
      && Ask(restarted.jobs, AskRequest(Some(id), Some(query)), None) == NotReady
      && var polled := Step(env, restarted, PollEvent(id, None));
      Ask(polled.jobs, AskRequest(Some(id), Some(query)), None) == Answer(MockAnswer(query))
  {
  }
}

=== FILE: lists.dfy ===
/** Generic list operations used to state the task's loops over blocks. */
module Lists {
  import opened Wrappers

  /** `[f(x) for x in xs]`. */
  function Map<A, B>(f: A -> B, xs: seq<A>): (ys: seq<B>)
    ensures |ys| == |xs|
    ensures forall i :: 0 <= i < |xs| ==> ys[i] == f(xs[i])
  {
    seq(|xs|, i requires 0 <= i < |xs| => f(xs[i]))
  }

  /** Mapping distributes over concatenation. */
  lemma MapAppend<A, B>(f: A -> B, xs: seq<A>, ys: seq<A>)
    ensures Map(f, xs + ys) == Map(f, xs) + Map(f, ys)
  {
    var all := Map(f, xs + ys);
    forall i | 0 <= i < |all| ensures all[i] == (Map(f, xs) + Map(f, ys))[i] {
      if i < |xs| {
        assert (xs + ys)[i] == xs[i];
      } else {
        assert (xs + ys)[i] == ys[i - |xs|];
      }
    }
  }

  /** Mapping one more element adds its image at the end. */
  lemma MapSnoc<A, B>(f: A -> B, xs: seq<A>, i: nat)
    requires i < |xs|
    ensures Map(f, xs[..i + 1]) == Map(f, xs[..i]) + [f(xs[i])]
  {
    assert xs[..i + 1] == xs[..i] + [xs[i]];
    MapAppend(f, xs[..i], [xs[i]]);
  }

  /** The present values of a list of optional values, in order. */
  function Somes<T>(xs: seq<Option<T>>): (ys: seq<T>)
    ensures |ys| <= |xs|
  {
    if |xs| == 0 then []
    else (if xs[0].Some? then [xs[0].value] else []) + Somes(xs[1..])
  }

  /** Collecting the present values distributes over concatenation. */
  lemma {:induction false} SomesAppend<T>(a: seq<Option<T>>, b: seq<Option<T>>)
    ensures Somes(a + b) == Somes(a) + Somes(b)
    decreases |a|
  {
    if |a| == 0 {
      assert a + b == b;
    } else {
      var ab := a + b;
      var head := if a[0].Some? then [a[0].value] else [];
      assert ab[0] == a[0];
      assert ab[1..] == a[1..] + b;
      SomesAppend(a[1..], b);
      assert Somes(ab) == head + Somes(ab[1..]);
      assert Somes(a) == head + Somes(a[1..]);
      assert head + (Somes(a[1..]) + Somes(b)) == (head + Somes(a[1..])) + Somes(b);
    }
  }

  /** A value is collected exactly when it is present in the list. */
  lemma {:induction false} SomesMembers<T>(xs: seq<Option<T>>, x: T)
    ensures x in Somes(xs) <==> Some(x) in xs
    decreases |xs|
  {
    if |xs| > 0 {
      SomesMembers(xs[1..], x);
      assert xs == [xs[0]] + xs[1..];
    }
  }

  /** The present values of a one-element list. */
  lemma SomesOne<T>(x: Option<T>)
    ensures Somes([x]) == if x.Some? then [x.value] else []
  {
    assert [x][1..] == [];
  }
}

=== FILE: risk.dfy ===
/**
 The three risk tiers a phrase score falls into. Scores are integers in
 thousandths, so the thresholds 0.70 and 0.40 are 700 and 400.
 */
module Risk {

  datatype Tier = Green | Yellow | Red {

    /** The label the backend emits for the tier. */
    function Name(): string {
      match this
      case Red => "Red"
      case Yellow => "Yellow"
      case Green => "Green"
    }

    /** Position of the tier in the order Green < Yellow < Red. */
    function Rank(): nat {
      match this
      case Green => 0
      case Yellow => 1
      case Red => 2
    }
  }

  const RedThreshold: int := 700
  const YellowThreshold: int := 400

  /** `get_risk_category`: Red from 0.70 up, Yellow from 0.40 below 0.70,
      Green below 0.40. */
  function RiskCategory(score: int): (t: Tier)
    ensures t == Red <==> RedThreshold <= score
    ensures t == Yellow <==> YellowThreshold <= score < RedThreshold
    ensures t == Green <==> score < YellowThreshold
  {
    if score >= RedThreshold then Red
    else if YellowThreshold <= score < RedThreshold then Yellow
    else Green
  }

  /** A higher score never lands in a lower tier. */
  lemma RiskMonotone(a: int, b: int)
    requires a <= b
    ensures RiskCategory(a).Rank() <= RiskCategory(b).Rank()
  {
  }

  /** Every tier is reached by some score in [0, 1000], and the emitted
      label is always one of the three the backend accepts. */
  lemma RiskTiersAllReachable(score: int)
    ensures RiskCategory(score).Name() in ["Red", "Yellow", "Green"]
    ensures RiskCategory(0) == Green && RiskCategory(400) == Yellow && RiskCategory(700) == Red
    ensures RiskCategory(399) == Green && RiskCategory(699) == Yellow
  {
  }
}

=== FILE: scorer.dfy ===
/**
 The legal-phrase importance scorer. Each weighted pattern belongs to one
 of five groups; the regular expressions themselves are not modelled: the
 scorer's input is which patterns matched the phrase, and whether the
 negation and emphasis patterns matched. Weights and modifiers are integers
 in thousandths (0.65 is 650), so clamping is exact and rounding to three
 decimals changes nothing.
 */
module Scorer {
  import opened Text

  datatype Category = Obligation | Payment | Consequence | Time | Formality

  /** The fifteen weighted patterns, named after what they look for. */
  datatype Pattern =
    | Duty | Entitlement | Liability
    | PaymentDue | LateCharge | Deposit
    | Default | Litigation | Cancellation | Forfeiture
    | Deadline | TermPeriod | Immediacy
    | Recital | Jurisdiction

  function CategoryOf(p: Pattern): Category {
    match p
    case Duty | Entitlement | Liability => Obligation
    case PaymentDue | LateCharge | Deposit => Payment
    case Default | Litigation | Cancellation | Forfeiture => Consequence
    case Deadline | TermPeriod | Immediacy => Time
    case Recital | Jurisdiction => Formality
  }

  /** Weight of a pattern, in thousandths. Formality patterns weigh at most
      0.18; every other pattern weighs between 0.55 and 0.80. */
  function Weight(p: Pattern): (w: nat)
    ensures CategoryOf(p) == Formality ==> 150 <= w <= 180
    ensures CategoryOf(p) != Formality ==> 550 <= w <= 800
  {
    match p
    case Duty => 650
    case Entitlement => 600
    case Liability => 660
    case PaymentDue => 780
    case LateCharge => 750
    case Deposit => 720
    case Default => 800
    case Litigation => 780
    case Cancellation => 760
    case Forfeiture => 740
    case Deadline => 580
    case TermPeriod => 550
    case Immediacy => 600
    case Recital => 150
    case Jurisdiction => 180
  }

  /** The order in which the scorer tries the patterns: obligation, payment,
      consequence and time groups, then the formality group. */
  const PatternOrder: seq<Pattern> := [
    Duty, Entitlement, Liability,
    PaymentDue, LateCharge, Deposit,
    Default, Litigation, Cancellation, Forfeiture,
    Deadline, TermPeriod, Immediacy,
    Recital, Jurisdiction
  ]

  lemma EveryPatternTried(p: Pattern)
    ensures p in PatternOrder
  {
  }

  /** What the regular expressions found in one phrase. */
  datatype Scan = Scan(matched: set<Pattern>, negated: bool, emphasised: bool)

  /** The list of matched (score, category) pairs, kept as the matched
      patterns themselves (each pattern fixes its score and category),
      collected by trying the patterns of `order` in turn. */
  function HitsIn(order: seq<Pattern>, matched: set<Pattern>): (hits: seq<Pattern>)
    ensures |hits| <= |order|
    ensures forall p :: p in hits ==> p in matched
    ensures forall p :: p in matched && p in order ==> p in hits
  {
    if order == [] then []
    else
      var rest := HitsIn(order[1..], matched);
      assert forall p :: p in order ==> p == order[0] || p in order[1..];
      (if order[0] in matched then [order[0]] else []) + rest
  }

  /** The matched patterns of a scan, in the scorer's order. */
  function MatchedScores(scan: Scan): (hits: seq<Pattern>)
    ensures forall p :: p in hits <==> p in scan.matched
    ensures hits == [] <==> scan.matched == {}
  {
    var hits := HitsIn(PatternOrder, scan.matched);
    assert forall p :: p in scan.matched ==> p in hits by {
      forall p | p in scan.matched ensures p in hits {
        EveryPatternTried(p);
      }
    }
    assert hits != [] ==> scan.matched != {} by {
      if hits != [] {
        assert hits[0] in hits;
      }
    }
    hits
  }

  /** Python's `max` over the weights of a list, 0 for an empty list. */
  function MaxWeight(hits: seq<Pattern>): (m: nat)
    ensures forall p :: p in hits ==> Weight(p) <= m
    ensures hits != [] ==> exists p :: p in hits && Weight(p) == m
    ensures hits == [] ==> m == 0
  {
    if hits == [] then 0
    else
      var rest := MaxWeight(hits[1..]);
      assert forall p :: p in hits <==> p == hits[0] || p in hits[1..];
      if Weight(hits[0]) >= rest then Weight(hits[0]) else rest
  }

  predicate HasFormality(hits: seq<Pattern>) {
    exists p :: p in hits && CategoryOf(p) == Formality
  }

  /** The formality entries of a list, in order. */
  function FormalityHits(hits: seq<Pattern>): (f: seq<Pattern>)
    ensures forall p :: p in f <==> p in hits && CategoryOf(p) == Formality
  {
    if hits == [] then []
    else
      assert forall p :: p in hits <==> p == hits[0] || p in hits[1..];
      (if CategoryOf(hits[0]) == Formality then [hits[0]] else []) + FormalityHits(hits[1..])
  }

  /** The base score: the largest formality weight when any formality
      pattern matched, whatever else matched; otherwise the largest weight. */
  function BaseScore(hits: seq<Pattern>): (b: nat)
    ensures HasFormality(hits) ==>
      (exists p :: p in hits && CategoryOf(p) == Formality && Weight(p) == b)
      && (forall p :: p in hits && CategoryOf(p) == Formality ==> Weight(p) <= b)
    ensures !HasFormality(hits) ==>
      (hits != [] ==> exists p :: p in hits && Weight(p) == b)
      && (forall p :: p in hits ==> Weight(p) <= b)
    ensures b <= 800
  {
    if HasFormality(hits) then MaxWeight(FormalityHits(hits)) else MaxWeight(hits)
  }

  /** The distinct non-formality categories among the matched pairs. */
  function Categories(hits: seq<Pattern>): (cats: set<Category>)
    ensures Formality !in cats
    ensures forall p :: p in hits && CategoryOf(p) != Formality ==> CategoryOf(p) in cats
    ensures forall c :: c in cats ==> exists p :: p in hits && CategoryOf(p) == c
  {
    set p | p in hits && CategoryOf(p) != Formality :: CategoryOf(p)
  }

  lemma {:induction false} SubsetCardinality<T>(a: set<T>, b: set<T>)
    requires a <= b
    ensures |a| <= |b|
    decreases |a|
  {
    if a != {} {
      var x :| x in a;
      SubsetCardinality(a - {x}, b - {x});
    }
  }

  /** At most the four non-formality categories can be present. */
  lemma CategoriesAtMostFour(cats: set<Category>)
    requires Formality !in cats
    ensures |cats| <= 4
  {
    var four := {Obligation, Payment, Consequence, Time};
    assert cats <= four by {
      forall c | c in cats ensures c in four {
        match c
        case Obligation =>
        case Payment =>
        case Consequence =>
        case Time =>
      }
    }
    SubsetCardinality(cats, four);
  }

  /** The sum of the context modifiers: -0.15 for a negation, +0.08 for
      emphasis, +0.10 per distinct category beyond the first, +0.05 when
      consequence and payment both matched, +0.03 when obligation and time
      both matched. */
  function ContextBonus(negated: bool, emphasised: bool, cats: set<Category>): (bonus: int)
    requires Formality !in cats
    ensures -150 <= bonus <= 460
  {
    CategoriesAtMostFour(cats);
    (if negated then -150 else 0)
    + (if emphasised then 80 else 0)
    + (if |cats| > 1 then 100 * (|cats| - 1) else 0)
    + (if Consequence in cats && Payment in cats then 50 else 0)
    + (if Obligation in cats && Time in cats then 30 else 0)
  }

  /** The score before clamping: base plus modifiers, or 0 when nothing matched. */
  function RawScore(scan: Scan): (raw: int)
    ensures scan.matched == {} ==> raw == 0
    ensures raw <= 800 + 460
  {
    var hits := MatchedScores(scan);
    if hits == [] then 0
    else BaseScore(hits) + ContextBonus(scan.negated, scan.emphasised, Categories(hits))
  }

  /** `min(1.0, max(0.0, x))` in thousandths. */
  function Clamp(x: int): (r: nat)
    ensures r <= 1000
    ensures x < 0 ==> r == 0
    ensures 0 <= x <= 1000 ==> r == x
    ensures 1000 < x ==> r == 1000
  {
    if x < 0 then 0 else if x > 1000 then 1000 else x
  }

  /** `score_phrase`: 0 for a blank phrase, otherwise the clamped raw score. */
  function ScorePhrase(phrase: string, scan: Scan): (score: nat)
    ensures 0 <= score <= 1000
    ensures IsBlank(phrase) || scan.matched == {} ==> score == 0
  {
    if IsBlank(phrase) then 0 else Clamp(RawScore(scan))
  }

  // ---------------------------------------------------------------------
  // A declarative statement of the scorer over the set of matched
  // patterns, and the proof that the list-based computation meets it.

  /** `b` is the largest weight of a pattern in `pool`. */
  ghost predicate IsTopWeight(b: int, pool: set<Pattern>) {
    && (exists p :: p in pool && Weight(p) == b)
    && (forall p :: p in pool ==> Weight(p) <= b)
  }

  ghost function FormalMatches(matched: set<Pattern>): set<Pattern> {
    set p | p in matched && CategoryOf(p) == Formality
  }

  ghost function MatchedCategories(matched: set<Pattern>): set<Category> {
    set p | p in matched && CategoryOf(p) != Formality :: CategoryOf(p)
  }

  /** The patterns whose weights compete for the base score: the formality
      matches when there are any, otherwise every match. */
  ghost function Pool(matched: set<Pattern>): set<Pattern> {
    var formal := FormalMatches(matched);
    if formal != {} then formal else matched
  }

  /** The score the scorer is meant to give: 0 for a blank phrase or when
      nothing matched; otherwise the top weight of the pool plus the context
      modifiers for the distinct matched categories, clamped to [0, 1000]. */
  ghost predicate IsDeclaredScore(phrase: string, scan: Scan, score: int) {
    if IsBlank(phrase) || scan.matched == {} then score == 0
    else
      var cats := MatchedCategories(scan.matched);
      Formality !in cats &&
      exists b :: IsTopWeight(b, Pool(scan.matched)) && score == Clamp(b + ContextBonus(scan.negated, scan.emphasised, cats))
  }

  lemma CategoriesOfMatches(scan: Scan)
    ensures Categories(MatchedScores(scan)) == MatchedCategories(scan.matched)
  {
  }

  /** The list-based base score is the top weight of the pool. */
  lemma BaseScoreIsTopOfPool(scan: Scan)
    requires scan.matched != {}
    ensures IsTopWeight(BaseScore(MatchedScores(scan)), Pool(scan.matched))
  {
    var hits := MatchedScores(scan);
    var formal := FormalMatches(scan.matched);
    var b := BaseScore(hits);
    if HasFormality(hits) {
      var p :| p in hits && CategoryOf(p) == Formality && Weight(p) == b;
      assert p in formal;
    } else {
      forall p | p in scan.matched ensures p !in formal {
        assert p in hits;
      }
      assert formal == {};
    }
  }

  /** The raw score is the top weight of the pool plus the modifiers. */
  lemma RawScoreDeclared(scan: Scan)
    requires scan.matched != {}
    ensures Formality !in MatchedCategories(scan.matched)
    ensures IsTopWeight(BaseScore(MatchedScores(scan)), Pool(scan.matched))
    ensures RawScore(scan) == BaseScore(MatchedScores(scan))
      + ContextBonus(scan.negated, scan.emphasised, MatchedCategories(scan.matched))
  {
    CategoriesOfMatches(scan);
    BaseScoreIsTopOfPool(scan);
  }

  /** The scorer computes the declared score for every phrase and scan. */
  lemma ScoreIsDeclared(phrase: string, scan: Scan)
    ensures IsDeclaredScore(phrase, scan, ScorePhrase(phrase, scan))
  {
    if !IsBlank(phrase) && scan.matched != {} {
      RawScoreDeclared(scan);
    }
  }

  /** Formality is never one of the matched categories that earn modifiers. */
  lemma NoFormalCategory(matched: set<Pattern>)
    ensures Formality !in MatchedCategories(matched)
  {
  }

  /** The top weight of a pool is unique. */
  lemma TopWeightUnique(b: int, c: int, pool: set<Pattern>)
    requires IsTopWeight(b, pool) && IsTopWeight(c, pool)
    ensures b == c
  {
  }

  /** Every non-empty set of matches has a top weight in its pool. */
  lemma TopWeightOf(matched: set<Pattern>) returns (b: int)
    requires matched != {}
    ensures IsTopWeight(b, Pool(matched))
  {
    b := BaseScore(MatchedScores(Scan(matched, false, false)));
    BaseScoreIsTopOfPool(Scan(matched, false, false));
  }

  // ---------------------------------------------------------------------
  // Properties of the score.

  /** Some formality pattern matched. */
  predicate AnyFormality(scan: Scan) {
    exists p :: p in scan.matched && CategoryOf(p) == Formality
  }

  /** When a formality pattern matched, the pool's top weight is at most 0.18. */
  lemma FormalTopIsLight(b: int, matched: set<Pattern>)
    requires FormalMatches(matched) != {} && IsTopWeight(b, Pool(matched))
    ensures 150 <= b <= 180
  {
    var p :| p in Pool(matched) && Weight(p) == b;
    assert CategoryOf(p) == Formality;
  }

  /** When no formality pattern matched, the pool's top weight is at least 0.55. */
  lemma SubstantiveTopIsHeavy(b: int, matched: set<Pattern>)
    requires FormalMatches(matched) == {} && IsTopWeight(b, Pool(matched))
    ensures 550 <= b <= 800
  {
    var p :| p in Pool(matched) && Weight(p) == b;
    assert p !in FormalMatches(matched);
  }

  /** A formality match caps the base at 0.18, however heavy the other
      matches are, so the score never exceeds 0.18 + 0.46 = 0.64. */
  lemma FormalityCapsScore(phrase: string, scan: Scan)
    requires AnyFormality(scan)
    ensures ScorePhrase(phrase, scan) <= 640
  {
    var q :| q in scan.matched && CategoryOf(q) == Formality;
    assert q in FormalMatches(scan.matched);
    var b := TopWeightOf(scan.matched);
    FormalTopIsLight(b, scan.matched);
    NoFormalCategory(scan.matched);
    ScoreOfParts(phrase, scan, b, ContextBonus(scan.negated, scan.emphasised, MatchedCategories(scan.matched)));
  }

  /** The raw score is never negative: the lightest pattern weighs 0.15 and
      the only negative modifier is -0.15, so the lower clamp never binds. */
  lemma RawScoreNonNegative(scan: Scan)
    ensures 0 <= RawScore(scan)
    ensures RawScore(scan) <= 1000 ==> Clamp(RawScore(scan)) == RawScore(scan)
  {
    if scan.matched != {} {
      RawScoreDeclared(scan);
      var b := BaseScore(MatchedScores(scan));
      if FormalMatches(scan.matched) != {} {
        FormalTopIsLight(b, scan.matched);
      } else {
        SubstantiveTopIsHeavy(b, scan.matched);
      }
    }
  }

  /** Without a formality match, any match scores at least 0.40: the base is
      at least 0.55 and the modifiers take away at most 0.15. */
  lemma SubstantiveMatchScoresHigh(phrase: string, scan: Scan)
    requires !IsBlank(phrase) && scan.matched != {} && !AnyFormality(scan)
    ensures 400 <= ScorePhrase(phrase, scan)
  {
    RawScoreDeclared(scan);
    assert FormalMatches(scan.matched) == {};
    SubstantiveTopIsHeavy(BaseScore(MatchedScores(scan)), scan.matched);
  }

  /** A negation never raises the score and emphasis never lowers it. */
  lemma ModifiersPullTheRightWay(phrase: string, matched: set<Pattern>, negated: bool, emphasised: bool)
    ensures ScorePhrase(phrase, Scan(matched, true, emphasised)) <= ScorePhrase(phrase, Scan(matched, false, emphasised))
    ensures ScorePhrase(phrase, Scan(matched, negated, false)) <= ScorePhrase(phrase, Scan(matched, negated, true))
  {
  }


  /** A larger pool has a top weight at least as large. */
  lemma TopWeightGrows(b: int, c: int, small: set<Pattern>, large: set<Pattern>)
    requires small <= large
    requires IsTopWeight(b, small) && IsTopWeight(c, large)
    ensures b <= c
  {
  }

  /** More distinct categories never lower the context modifiers. */
  lemma {:induction false} BonusGrows(negated: bool, emphasised: bool, small: set<Category>, large: set<Category>)
    requires small <= large && Formality !in large
    ensures ContextBonus(negated, emphasised, small) <= ContextBonus(negated, emphasised, large)
  {
    SubsetCardinality(small, large);
  }

  /** More matches never lower the score, as long as the formality matches
      stay the same. */
  lemma MoreMatchesNeverLower(phrase: string, a: Scan, b: Scan)
    requires a.matched <= b.matched
    requires FormalMatches(a.matched) == FormalMatches(b.matched)
    requires a.negated == b.negated && a.emphasised == b.emphasised
    ensures ScorePhrase(phrase, a) <= ScorePhrase(phrase, b)
  {
    if !IsBlank(phrase) && a.matched != {} {
      var topA := TopWeightOf(a.matched);
      var topB := TopWeightOf(b.matched);
      assert Pool(a.matched) <= Pool(b.matched);
      TopWeightGrows(topA, topB, Pool(a.matched), Pool(b.matched));
      NoFormalCategory(a.matched);
      NoFormalCategory(b.matched);
      var catsA := MatchedCategories(a.matched);
      var catsB := MatchedCategories(b.matched);
      BonusGrows(a.negated, a.emphasised, catsA, catsB);
      ScoreOfParts(phrase, a, topA, ContextBonus(a.negated, a.emphasised, catsA));
      ScoreOfParts(phrase, b, topB, ContextBonus(b.negated, b.emphasised, catsB));
    }
  }

  /** One pattern from each non-formality group, with emphasis and without
      negation, gives modifiers 0.08 + 0.30 + 0.05 + 0.03 = 0.46. */
  lemma FullBonus(matched: set<Pattern>, o: Pattern, p: Pattern, c: Pattern, t: Pattern)
    requires o in matched && CategoryOf(o) == Obligation
    requires p in matched && CategoryOf(p) == Payment
    requires c in matched && CategoryOf(c) == Consequence
    requires t in matched && CategoryOf(t) == Time
    ensures ContextBonus(false, true, MatchedCategories(matched)) == 460
  {
    var cats := MatchedCategories(matched);
    assert Obligation in cats && Payment in cats && Consequence in cats && Time in cats;
    CategoriesAtMostFour(cats);
    assert {Obligation, Payment, Consequence, Time} <= cats;
    SubsetCardinality({Obligation, Payment, Consequence, Time}, cats);
  }

  /** One pattern from each non-formality group, with emphasis and no
      negation, gives a raw score of at least 0.74 + 0.46 = 1.20, clamped
      to 1.0. */
  lemma AllGroupsScoreTop(phrase: string, scan: Scan, o: Pattern, p: Pattern, c: Pattern, t: Pattern)
    requires !IsBlank(phrase) && !scan.negated && scan.emphasised && !AnyFormality(scan)
    requires o in scan.matched && CategoryOf(o) == Obligation
    requires p in scan.matched && CategoryOf(p) == Payment
    requires c in scan.matched && CategoryOf(c) == Consequence
    requires t in scan.matched && CategoryOf(t) == Time
    ensures 1200 <= RawScore(scan) && ScorePhrase(phrase, scan) == 1000
  {
    FullBonus(scan.matched, o, p, c, t);
    var b := TopWeightOf(scan.matched);
    NoFormalityPoolIsAll(scan, b, c);
    ConsequenceWeighsAtLeast740(c);
    assert 1200 <= b + 460;
    ScoreOfParts(phrase, scan, b, 460);
  }

  /** Every consequence pattern weighs at least 0.74. */
  lemma ConsequenceWeighsAtLeast740(c: Pattern)
    requires CategoryOf(c) == Consequence
    ensures 740 <= Weight(c)
  {
  }

  /** With the default pattern among them the raw score is the largest
      possible: 0.80 + 0.46 = 1.26. */
  lemma DefaultWithAllGroupsScoresMost(scan: Scan, o: Pattern, p: Pattern, t: Pattern)
    requires !scan.negated && scan.emphasised && !AnyFormality(scan)
    requires o in scan.matched && CategoryOf(o) == Obligation
    requires p in scan.matched && CategoryOf(p) == Payment
    requires Default in scan.matched
    requires t in scan.matched && CategoryOf(t) == Time
    ensures RawScore(scan) == 1260
  {
    FullBonus(scan.matched, o, p, Default, t);
    var b := TopWeightOf(scan.matched);
    NoFormalityPoolIsAll(scan, b, Default);
    ScoreOfParts("x", scan, b, 460);
  }

  /** Without a formality match every match competes for the base score. */
  lemma NoFormalityPoolIsAll(scan: Scan, b: int, q: Pattern)
    requires !AnyFormality(scan) && IsTopWeight(b, Pool(scan.matched)) && q in scan.matched
    ensures Weight(q) <= b <= 800
  {
    assert FormalMatches(scan.matched) == {};
    SubstantiveTopIsHeavy(b, scan.matched);
  }

  /** A single substantive match, with or without formality matches beside
      it, contributes one category and so no modifiers. */
  lemma OneCategoryNoBonus(p: Pattern, matched: set<Pattern>)
    requires p in matched && CategoryOf(p) != Formality
    requires forall q :: q in matched && q != p ==> CategoryOf(q) == Formality
    ensures ContextBonus(false, false, MatchedCategories(matched)) == 0
  {
    var cats := MatchedCategories(matched);
    forall c | c in cats ensures c == CategoryOf(p) {
      var q :| q in matched && CategoryOf(q) != Formality && CategoryOf(q) == c;
    }
    assert cats <= {CategoryOf(p)};
    SubsetCardinality(cats, {CategoryOf(p)});
    assert !(Consequence in cats && Payment in cats);
    assert !(Obligation in cats && Time in cats);
  }

  /** The score is fixed by the top weight of the pool and the modifiers. */
  lemma ScoreOfParts(phrase: string, scan: Scan, b: int, bonus: int)
    requires scan.matched != {}
    requires IsTopWeight(b, Pool(scan.matched))
    requires ContextBonus(scan.negated, scan.emphasised, MatchedCategories(scan.matched)) == bonus
    ensures RawScore(scan) == b + bonus
    ensures !IsBlank(phrase) ==> ScorePhrase(phrase, scan) == Clamp(b + bonus)
  {
    RawScoreDeclared(scan);
    TopWeightUnique(b, BaseScore(MatchedScores(scan)), Pool(scan.matched));
  }

  /** A single substantive match without modifiers scores its own weight:
      a default clause alone scores 0.80. */
  lemma SingleMatchScoresItsWeight(phrase: string, p: Pattern)
    requires !IsBlank(phrase) && CategoryOf(p) != Formality
    ensures ScorePhrase(phrase, Scan({p}, false, false)) == Weight(p)
  {
    OneCategoryNoBonus(p, {p});
    assert Pool({p}) == {p} by {
      assert FormalMatches({p}) == {};
    }
    ScoreOfParts(phrase, Scan({p}, false, false), Weight(p), 0);
  }

  /** Adding one formality match to a single substantive match drops the
      score to the formality weight: a default clause beside a recital
      scores 0.15, not 0.80. */
  lemma FormalityOverridesWeight(phrase: string, p: Pattern, f: Pattern)
    requires !IsBlank(phrase) && CategoryOf(p) != Formality && CategoryOf(f) == Formality
    ensures ScorePhrase(phrase, Scan({p, f}, false, false)) == Weight(f)
  {
    OneCategoryNoBonus(p, {p, f});
    assert Pool({p, f}) == {f} by {
      assert FormalMatches({p, f}) == {f};
    }
    ScoreOfParts(phrase, Scan({p, f}, false, false), Weight(f), 0);
  }
}

=== FILE: text.dfy ===
/**
 The string operations the backend relies on, with the meaning Python gives
 them: `str.isspace`, `str.strip()`, `str.split()`, `str.lower()`, the
 substring test `p in s` and `str.endswith`.
 */
module Text {

  /** Python's `str.isspace` for one character: the characters that
      `str.split()` and `str.strip()` (no argument) treat as whitespace. */
  predicate IsSpace(c: char) {
    var n := c as int;
    || (0x09 <= n <= 0x0D)
    || (0x1C <= n <= 0x20)
    || n == 0x85 || n == 0xA0 || n == 0x1680
    || (0x2000 <= n <= 0x200A)
    || n == 0x2028 || n == 0x2029 || n == 0x202F || n == 0x205F || n == 0x3000
  }

  /** Every character of `s` is whitespace, i.e. `not s.strip()`. */
  predicate IsBlank(s: string) {
    forall i :: 0 <= i < |s| ==> IsSpace(s[i])
  }

  /** No character of `s` is whitespace. */
  predicate NoSpace(s: string) {
    forall i :: 0 <= i < |s| ==> !IsSpace(s[i])
  }

  /** `s.lstrip()`: the suffix of `s` left after dropping leading whitespace. */
  function TrimLeft(s: string): (r: string)
    ensures |r| <= |s| && r == s[|s| - |r|..]
    ensures IsBlank(s[..|s| - |r|])
    ensures r == [] || !IsSpace(r[0])
    decreases |s|
  {
    if |s| > 0 && IsSpace(s[0]) then
      var r := TrimLeft(s[1..]);
      BlankAfterSpace(s, |s| - |r|);
      r
    else s
  }

  /** A whitespace character followed by blank text is blank text. */
  lemma BlankAfterSpace(s: string, k: nat)
    requires 1 <= k <= |s| && IsSpace(s[0]) && IsBlank(s[1..][..k - 1])
    ensures IsBlank(s[..k]) && s[1..][k - 1..] == s[k..]
  {
    forall i | 1 <= i < k ensures IsSpace(s[i]) {
      assert s[1..][..k - 1][i - 1] == s[i];
    }
  }

  /** `s.rstrip()`: the prefix of `s` left after dropping trailing whitespace. */
  function TrimRight(s: string): (r: string)
    ensures |r| <= |s| && r == s[..|r|]
    ensures IsBlank(s[|r|..])
    ensures r == [] || !IsSpace(r[|r| - 1])
    decreases |s|
  {
    if |s| > 0 && IsSpace(s[|s| - 1]) then
      var r := TrimRight(s[..|s| - 1]);
      BlankBeforeSpace(s, |r|);
      r
    else s
  }

  /** Blank text followed by a whitespace character is blank text. */
  lemma BlankBeforeSpace(s: string, k: nat)
    requires k < |s| && IsSpace(s[|s| - 1]) && IsBlank(s[..|s| - 1][k..])
    ensures IsBlank(s[k..]) && s[..|s| - 1][..k] == s[..k]
  {
    forall i | k <= i < |s| - 1 ensures IsSpace(s[i]) {
      assert s[..|s| - 1][k..][i - k] == s[i];
    }
  }

  /** `s.strip()`: `s` without its leading and trailing whitespace. */
  function Strip(s: string): (r: string)
    ensures |r| <= |s|
    ensures r == [] <==> IsBlank(s)
    ensures r == [] || (!IsSpace(r[0]) && !IsSpace(r[|r| - 1]))
  {
    var left := TrimLeft(s);
    var r := TrimRight(left);
    assert r == [] ==> IsBlank(s) by {
      if r == [] {
        assert left[|r|..] == left;
        assert s == s[..|s| - |left|] + left;
      }
    }
    r
  }

  /** Stripping twice is stripping once. */
  lemma StripIdempotent(s: string)
    ensures Strip(Strip(s)) == Strip(s)
  {
    var r := Strip(s);
    if r != [] {
      assert TrimLeft(r) == r;
      assert TrimRight(r) == r;
    }
  }

  /** Length of the longest prefix of `s` that holds no whitespace. */
  function WordEnd(s: string): (n: nat)
    ensures n <= |s|
    ensures NoSpace(s[..n])
    ensures n < |s| ==> IsSpace(s[n])
  {
    if |s| == 0 || IsSpace(s[0]) then 0 else 1 + WordEnd(s[1..])
  }

  /** `s.split()` with no argument: the maximal runs of non-whitespace
      characters of `s`, in order. */
  function Split(s: string): (words: seq<string>)
    ensures forall w :: w in words ==> w != [] && NoSpace(w)
    ensures words == [] <==> IsBlank(s)
    decreases |s|
  {
    if |s| == 0 then []
    else if IsSpace(s[0]) then
      assert IsBlank(s) <==> IsBlank(s[1..]) by {
        assert forall i :: 0 < i < |s| ==> s[i] == s[1..][i - 1];
      }
      Split(s[1..])
    else
      var n := WordEnd(s);
      [s[..n]] + Split(s[n..])
  }

  /** The characters of `s` that are not whitespace, in order. */
  function NonSpace(s: string): string {
    if |s| == 0 then [] else (if IsSpace(s[0]) then [] else [s[0]]) + NonSpace(s[1..])
  }

  /** The words of a list, run together. */
  function Concat(words: seq<string>): string {
    if |words| == 0 then [] else words[0] + Concat(words[1..])
  }

  /** Splitting a prefix without whitespace off the front. */
  lemma {:induction false} NonSpaceOfWordPrefix(s: string, k: nat)
    requires k <= |s| && NoSpace(s[..k])
    ensures NonSpace(s) == s[..k] + NonSpace(s[k..])
    decreases k
  {
    if k > 0 {
      assert s[1..][..k - 1] == s[..k][1..];
      NonSpaceOfWordPrefix(s[1..], k - 1);
      assert s[1..][k - 1..] == s[k..];
      assert s[..k] == [s[0]] + s[1..][..k - 1];
      assert !IsSpace(s[..k][0]);
    } else {
      assert s[0..] == s;
    }
  }

  /** `str.split()` loses only whitespace: the words, run together, are
      exactly the non-whitespace characters of the string, in order. */
  lemma {:induction false} SplitKeepsEveryNonSpaceChar(s: string)
    ensures Concat(Split(s)) == NonSpace(s)
    decreases |s|
  {
    if |s| == 0 {
    } else if IsSpace(s[0]) {
      SplitKeepsEveryNonSpaceChar(s[1..]);
    } else {
      var n := WordEnd(s);
      var words := Split(s);
      assert words == [s[..n]] + Split(s[n..]);
      assert words[1..] == Split(s[n..]);
      SplitKeepsEveryNonSpaceChar(s[n..]);
      NonSpaceOfWordPrefix(s, n);
    }
  }

  /** A word starts at position `i` of `s`: a non-whitespace character at
      the start of `s` or right after whitespace. */
  predicate IsWordStart(s: string, i: nat)
    requires i < |s|
  {
    !IsSpace(s[i]) && (i == 0 || IsSpace(s[i - 1]))
  }

  /** The number of word starts at positions `i` and after. */
  function StartsFrom(s: string, i: nat): nat
    requires i <= |s|
    decreases |s| - i
  {
    if i == |s| then 0
    else (if IsWordStart(s, i) then 1 else 0) + StartsFrom(s, i + 1)
  }

  /** The number of words of `s`, counted by their starting positions. */
  function WordCount(s: string): nat {
    StartsFrom(s, 0)
  }

  /** No word starts strictly inside a run of non-whitespace characters. */
  lemma {:induction false} NoStartInsideWord(s: string, i: nat, n: nat)
    requires 1 <= n && i + n <= |s|
    requires forall k :: i <= k < i + n ==> !IsSpace(s[k])
    ensures StartsFrom(s, i + 1) == StartsFrom(s, i + n)
    decreases n
  {
    if n > 1 {
      NoStartInsideWord(s, i, n - 1);
      assert !IsWordStart(s, i + n - 1) by {
        assert !IsSpace(s[i + n - 2]);
      }
    }
  }

  /** A string that starts with a word splits into that word and the
      split of the rest. */
  lemma SplitFirstWord(t: string)
    requires |t| > 0 && !IsSpace(t[0])
    ensures 1 <= WordEnd(t) && |Split(t)| == 1 + |Split(t[WordEnd(t)..])|
  {
  }

  /** Splitting the suffix of `s` from a word boundary `i` gives one word
      per word start from `i` on. */
  lemma {:induction false} SplitCountsStartsFrom(s: string, i: nat)
    requires i <= |s|
    requires i == 0 || i == |s| || IsSpace(s[i - 1]) || IsSpace(s[i])
    ensures |Split(s[i..])| == StartsFrom(s, i)
    decreases |s| - i, 1
  {
    if i == |s| {
      assert s[i..] == [];
    } else if IsSpace(s[i]) {
      SpaceStep(s, i);
    } else {
      WordStep(s, i);
    }
  }

  /** A whitespace character at `i` neither starts a word nor adds one
      to the split. */
  lemma {:induction false} SpaceStep(s: string, i: nat)
    requires i < |s| && IsSpace(s[i])
    ensures |Split(s[i..])| == StartsFrom(s, i)
    decreases |s| - i, 0
  {
    var t := s[i..];
    assert t[0] == s[i];
    assert t[1..] == s[i + 1..];
    SplitCountsStartsFrom(s, i + 1);
  }

  /** A word starting at the boundary `i` adds one to the split and one
      to the count, and the split goes on where the word ends. */
  lemma {:induction false} WordStep(s: string, i: nat)
    requires i < |s| && !IsSpace(s[i]) && (i == 0 || IsSpace(s[i - 1]))
    ensures |Split(s[i..])| == StartsFrom(s, i)
    decreases |s| - i, 0
  {
    var n := SplitWordAt(s, i);
    StartsAtWord(s, i, n);
    SplitCountsStartsFrom(s, i + n);
  }

  /** The split of the suffix from a word start `i` is that word, `n`
      characters long, followed by the split from `i + n`. */
  lemma SplitWordAt(s: string, i: nat) returns (n: nat)
    requires i < |s| && !IsSpace(s[i])
    ensures 1 <= n && i + n <= |s| && n == WordEnd(s[i..])
    ensures forall k :: i <= k < i + n ==> !IsSpace(s[k])
    ensures i + n < |s| ==> IsSpace(s[i + n])
    ensures |Split(s[i..])| == 1 + |Split(s[i + n..])|
  {
    var t := s[i..];
    assert t[0] == s[i];
    SplitFirstWord(t);
    n := WordEnd(t);
    WordRunInSuffix(s, i, n);
  }

  /** A word start at `i` followed by a run of `n` non-whitespace
      characters counts once. */
  lemma StartsAtWord(s: string, i: nat, n: nat)
    requires 1 <= n && i + n <= |s|
    requires i == 0 || IsSpace(s[i - 1])
    requires forall k :: i <= k < i + n ==> !IsSpace(s[k])
    ensures StartsFrom(s, i) == 1 + StartsFrom(s, i + n)
  {
    assert IsWordStart(s, i);
    NoStartInsideWord(s, i, n);
  }

  /** The first word of the suffix from `i` is a run of non-whitespace
      characters of `s`, followed by whitespace or the end of `s`. */
  lemma WordRunInSuffix(s: string, i: nat, n: nat)
    requires i <= |s| && n == WordEnd(s[i..])
    ensures i + n <= |s| && s[i..][n..] == s[i + n..]
    ensures forall k :: i <= k < i + n ==> !IsSpace(s[k])
    ensures i + n < |s| ==> IsSpace(s[i + n])
  {
    var t := s[i..];
    forall k | i <= k < i + n ensures !IsSpace(s[k]) {
      assert t[..n][k - i] == s[k];
    }
    if i + n < |s| {
      assert t[n] == s[i + n];
    }
  }

  /** `str.split()` gives exactly one word per word start, so the word
      count of a string does not depend on how `Split` breaks it. */
  lemma SplitCountsWords(s: string)
    ensures |Split(s)| == WordCount(s)
  {
    assert s[0..] == s;
    SplitCountsStartsFrom(s, 0);
  }

  /** `" ".join(words)`: the words separated by single spaces. */
  function JoinWords(words: seq<string>): string {
    if |words| == 0 then []
    else if |words| == 1 then words[0]
    else words[0] + " " + JoinWords(words[1..])
  }

  /** Every word is non-empty and holds no whitespace, as `str.split()`
      produces them. */
  predicate AreWords(words: seq<string>) {
    forall i :: 0 <= i < |words| ==> words[i] != [] && NoSpace(words[i])
  }

  /** `WordEnd` stops exactly at the first whitespace character. */
  lemma {:induction false} WordEndAt(s: string, k: nat)
    requires k <= |s| && NoSpace(s[..k]) && (k < |s| ==> IsSpace(s[k]))
    ensures WordEnd(s) == k
    decreases k
  {
    if k > 0 {
      assert !IsSpace(s[..k][0]);
      assert s[1..][..k - 1] == s[..k][1..];
      WordEndAt(s[1..], k - 1);
    }
  }

  /** Joining words with single spaces and splitting again gives the words
      back. */
  lemma {:induction false} SplitJoinWords(words: seq<string>)
    requires AreWords(words)
    ensures Split(JoinWords(words)) == words
    decreases |words|
  {
    if |words| == 1 {
      var w := words[0];
      assert w[..|w|] == w;
      WordEndAt(w, |w|);
      assert w[|w|..] == [];
    } else if |words| > 1 {
      var w := words[0];
      var rest := JoinWords(words[1..]);
      var s := w + " " + rest;
      assert s[..|w|] == w;
      WordEndAt(s, |w|);
      assert s[|w|..][1..] == rest;
      SplitJoinWords(words[1..]);
      assert words == [w] + words[1..];
    }
  }

  /** A non-empty join starts with the first word's first character and
      ends with the last word's last character. */
  lemma {:induction false} JoinWordsEnds(words: seq<string>)
    requires |words| > 0 && AreWords(words)
    ensures var j := JoinWords(words);
      |j| > 0 && j[0] == words[0][0] && j[|j| - 1] == words[|words| - 1][|words[|words| - 1]| - 1]
    decreases |words|
  {
    var j := JoinWords(words);
    var w := words[0];
    assert |w| > 0;
    if |words| > 1 {
      var tail := words[1..];
      var rest := JoinWords(tail);
      JoinWordsEnds(tail);
      assert j == w + " " + rest;
      assert tail[|tail| - 1] == words[|words| - 1];
      assert j[0] == w[0];
      assert j[|j| - 1] == rest[|rest| - 1];
    }
  }

  /** Stripping a join of words with whitespace around it gives the join. */
  lemma StripPaddedJoin(words: seq<string>)
    requires |words| > 0 && AreWords(words)
    ensures Strip(JoinWords(words) + " ") == JoinWords(words)
  {
    var j := JoinWords(words);
    JoinWordsEnds(words);
    var s := j + " ";
    assert !IsSpace(s[0]);
    assert TrimLeft(s) == s;
    assert s[..|s| - 1] == j;
    assert TrimRight(s) == TrimRight(j);
    assert TrimRight(j) == j;
  }

  /** The stripped string is a contiguous block of the original, starting
      at position `i`. */
  lemma StripIsInfix(s: string) returns (i: nat)
    ensures i + |Strip(s)| <= |s| && s == s[..i] + Strip(s) + s[i + |Strip(s)|..]
  {
    var left := TrimLeft(s);
    i := |s| - |left|;
    var r := TrimRight(left);
    assert r == left[..|r|];
    assert left == s[i..];
    assert r == s[i..i + |r|];
    Decompose(s, i, i + |r|);
  }

  /** Cutting a string in three places and joining the pieces again. */
  lemma Decompose(s: string, i: nat, j: nat)
    requires i <= j <= |s|
    ensures s == s[..i] + s[i..j] + s[j..]
  {
    assert s[..j] == s[..i] + s[i..j];
    assert s == s[..j] + s[j..];
  }

  /** A contiguous block of a string is contained in it. */
  lemma ContainsInfix(pre: string, mid: string, post: string)
    ensures Contains(pre + mid + post, mid)
  {
    var s := pre + mid + post;
    assert mid <= s[|pre|..];
    ContainsAt(s, mid);
  }

  /** Containment survives appending. */
  lemma ContainsExtends(s: string, tail: string, p: string)
    requires Contains(s, p)
    ensures Contains(s + tail, p)
  {
    ContainsAt(s, p);
    var i :| 0 <= i <= |s| && p <= s[i..];
    assert (s + tail)[i..] == s[i..] + tail;
    ContainsAt(s + tail, p);
  }

  /** Containment survives putting text around the string. */
  lemma ContainsInContext(x: string, t: string, y: string, p: string)
    requires Contains(t, p)
    ensures Contains(x + t + y, p)
  {
    ContainsAt(t, p);
    var j :| 0 <= j <= |t| && p <= t[j..];
    var s := x + t + y;
    assert p <= s[|x| + j..] by {
      assert |p| <= |s| - |x| - j;
      forall m | 0 <= m < |p| ensures s[|x| + j + m] == p[m] {
        assert t[j..][m] == p[m];
      }
    }
    ContainsAt(s, p);
  }

  /** `c.lower()` on one character; only ASCII letters are case-mapped. */
  function LowerChar(c: char): char {
    if 'A' <= c <= 'Z' then (c as int + 32) as char else c
  }

  /** `s.lower()`, character by character. */
  function Lower(s: string): (r: string)
    ensures |r| == |s|
    ensures forall i :: 0 <= i < |s| ==> r[i] == LowerChar(s[i])
    ensures forall i :: 0 <= i < |r| ==> !('A' <= r[i] <= 'Z')
  {
    seq(|s|, i requires 0 <= i < |s| => LowerChar(s[i]))
  }

  /** Lower-casing twice is lower-casing once. */
  lemma LowerIdempotent(s: string)
    ensures Lower(Lower(s)) == Lower(s)
  {
    var l := Lower(s);
    forall i | 0 <= i < |l| ensures Lower(l)[i] == l[i] {
      assert !('A' <= l[i] <= 'Z');
    }
  }

  /** Lower-casing commutes with dropping a prefix. */
  lemma LowerSuffix(s: string, i: nat)
    requires i <= |s|
    ensures Lower(s)[i..] == Lower(s[i..])
  {
    var l := Lower(s);
    var t := s[i..];
    var b := Lower(t);
    assert |l[i..]| == |b|;
    forall k | 0 <= k < |b| ensures l[i..][k] == b[k] {
      calc {
        l[i..][k];
        l[i + k];
        LowerChar(s[i + k]);
        { assert t[k] == s[i + k]; }
        LowerChar(t[k]);
        b[k];
      }
    }
  }

  /** Python's `p in s` for two strings: `p` occurs in `s` as a contiguous
      block, found by trying each start position in turn. */
  predicate Contains(s: string, p: string)
    decreases |s|
  {
    p <= s || (|s| > 0 && Contains(s[1..], p))
  }

  /** `Contains` agrees with the declarative reading: there is a position
      of `s` at which `p` begins. */
  lemma {:induction false} ContainsAt(s: string, p: string)
    ensures Contains(s, p) <==> exists i :: 0 <= i <= |s| && p <= s[i..]
    decreases |s|
  {
    if p <= s {
      assert s[0..] == s;
    } else if |s| == 0 {
      forall i | 0 <= i <= |s| ensures !(p <= s[i..]) {
        assert s[i..] == s;
      }
    } else {
      ContainsAt(s[1..], p);
      if Contains(s, p) {
        var j :| 0 <= j <= |s| - 1 && p <= s[1..][j..];
        assert s[1..][j..] == s[j + 1..];
      } else {
        forall i | 0 <= i <= |s| ensures !(p <= s[i..]) {
          if i == 0 {
            assert s[0..] == s;
          } else {
            assert s[1..][i - 1..] == s[i..];
          }
        }
      }
    }
  }

  /** Every string containing "payment" contains "pay". */
  lemma {:induction false} PaymentMentionsPay(s: string)
    ensures Contains(s, "payment") ==> Contains(s, "pay")
    decreases |s|
  {
    if "payment" <= s {
      assert s[..3] == "payment"[..3];
    } else if |s| > 0 {
      PaymentMentionsPay(s[1..]);
    }
  }

  /** Python's `s.endswith(suffix)`. */
  predicate EndsWith(s: string, suffix: string) {
    |suffix| <= |s| && s[|s| - |suffix|..] == suffix
  }
}

=== FILE: wrappers.dfy ===
/** Optional values, used where the backend returns `None` or skips an item. */
module Wrappers {

  datatype Option<+T> = None | Some(value: T)

}
